=== FILE: README.md ===
# Forbidden Desert client and server core, in Dafny

This project models the core of the Forbidden Desert game (forlorn-dryplace) and proves properties of it. The game has a C++ client and server. The model covers:

- **Wire format and connection.** Every message on the socket is a 2-byte big-endian length followed by the payload. A nonblocking `Connection` connects with a timeout, sends framed messages, and reassembles received frames across polls (`shared-src/Connection.cpp`, POSIX build).
- **Server session registry.** A doubly linked list of `Session`s with head insertion, unlinking and lookups by connection and by name (`server/src/SessionList.cpp`).
- **Client server session.** Opens the connection on demand and turns the connect outcome into session events (`client/src/ServerSession.cpp`).
- **Menu widgets, as discrete state:**
  - the box selector, a cyclic selection over a linked list of items;
  - the 15-character name text box;
  - the select-only buttons.
- **Main menu state machine.** Fades between submenus, the online name submission and its minimum spinner time, the settings' window-mode radio buttons and the resolution box (`client/src/MainMenu.cpp`).
- **Window decisions.** How many of the fixed windowed resolutions fit the monitor, upper-casing of typed keys, and the resize decision (`client/src/Window.cpp`).
- **Path strings.** The executable directory, resource paths and the preferences path (`client/src/Util.cpp`, `src/Util.cpp`).

The model is split into one module per source file, plus three shared ones:

- `Wire` is the framing specification.
- `Paths` is the path arithmetic both `Util` copies share.
- `Wrappers` holds `Option` and `Result`.

Classes whose fields the source updates in place stay classes:

- `Connection`, `SessionList`, `ServerSession`, `BoxSelector`, `MenuTextBox`, `SelectableButton`, `MainMenu`, `Util`.
- Their methods are proved against specification functions. Examples: `Wire.Deframe` for the receive loop, `MainMenus.StateUpdate` for `update`, `Paths.ExeDir` for `registerRunArgs`.

The operating system, the clock, the mouse and the environment are parameters:

- system calls become result values (`SetupReport`, `ConnectProbe`, the bytes queued in the kernel, `PeerState`);
- elapsed time is a `real` in seconds;
- a mouse hit is a boolean;
- `HOME` and `LOCALAPPDATA` are strings.

Callbacks are registration flags. What a call hands to a callback is returned as a sequence of events.

Four behaviours of the code deserve a note. The model keeps each one as the code has it.

- **Connect failures.** `ServerSession.h` gives each event a meaning (client/src/ServerSession.h:28-31):
  - `CONNECTION_FAILED` is for a connection that was not made, or failed before the name was accepted or rejected.
  - `CONNECTION_LOST` is for a loss after that point.

  Yet `open` reports a connection that cannot be set up as `CONNECTION_LOST` (client/src/ServerSession.cpp:38), and so does `onConnectFail` for a connect that fails or times out (client/src/ServerSession.cpp:73). The main menu waits only for `CONNECTION_FAILED`, `NAME_ACCEPTED` and `NAME_REJECTED` (client/src/MainMenu.cpp:699-711). So after a connect failure no error is shown, and the spinner keeps turning with the inputs disabled. These facts state it:
  - `MainMenus.MainMenu.Update` says which events a poll returns;
  - `MainMenus.ConnectFailureKeepsSpinning` covers one such update;
  - `MainMenus.SpinsUntilResult` covers any run of updates without a result.

  Going back to the top-level menu does not stop the spinner, since the back button only starts a fade (client/src/MainMenu.cpp:532-534). Only two things end it. Choosing "Play online" again re-enables the inputs (client/src/MainMenu.cpp:489-495). Pressing enter in the name input submits again. `onKeyPressed` hands enter straight to `triggerNameSubmission` (client/src/MainMenu.cpp:466-469), which checks only that the name is not empty (client/src/MainMenu.cpp:715) and reads neither the loading flag nor an enabled flag. A later submission can then succeed.
- **Silent loss of an established connection.** `open` binds only the connect callbacks (client/src/ServerSession.cpp:29-32). So when the server goes away after a connect, the connection's receive pass closes it without telling the session. The session keeps the closed connection, and `open` does not replace it (`ServerSessions.EstablishedConnectionIsSilent`, `ServerSessions.ServerSession.Poll`).
- **Preferences path off Windows.** Outside Windows, `formPersistDataPath` ignores its argument. So the preferences file lands directly in the application's directory, after a doubled slash, not in a `preferences` subdirectory (`ClientUtil.PrefsPathLocation`).
- **Oversized payloads.** A payload over 65535 bytes is framed with its length truncated to 16 bits, and the receiver misreads it (`Wire.OversizedPayloadMisframed`).

## Model

| member | source | states |
|---|---|---|
| Wire.Be16 | shared-src/Connection.cpp:331-333 | the length read from the two prefix bytes is at most 65535 |
| Wire.LengthPrefix | shared-src/Connection.cpp:160-164 | the two bytes written for a length decode back to that length |
| Wire.DeframeRest | shared-src/Connection.cpp:306-384 | the bytes still being assembled are a suffix of the received stream and never hold a complete frame |
| Wire.DeframeFirst | shared-src/Connection.cpp:337-382 | a stream that starts with a complete frame yields that frame's payload first, then the decoding of the bytes after it |
| Wire.DeframeIncomplete | shared-src/Connection.cpp:306-335 | a stream with no complete frame yields no payload and is kept whole |
| Wire.DeframeAppend | shared-src/Connection.cpp:306-384 | decoding is incremental: later bytes only add payloads after those already decoded, continuing from the bytes being assembled |
| Wire.FrameRoundTrip | shared-src/Connection.cpp:155-185 | a frame of a payload of at most 65535 bytes decodes to exactly that payload, whatever follows |
| Wire.FramesRoundTrip | shared-src/Connection.cpp:155-185 | decoding the frames of several such payloads gives the payloads back in order, with nothing left over |
| Wire.OversizedPayloadMisframed | shared-src/Connection.cpp:160-185 | a payload longer than 65535 bytes is announced with its length mod 65536, so the receiver decodes a truncated message that differs from it |
| Connections.KernelRecv | shared-src/Connection.cpp:311-328 | `recv` returns data exactly when bytes are queued and some are asked for, never more than asked, all of the queue when it returns fewer; EAGAIN only for an empty queue of an open peer |
| Connections.FirstUndeliverable | shared-src/Connection.cpp:356-379 | the position where delivery stops is within the decoded payloads |
| Connections.FirstUndeliverableSpec | shared-src/Connection.cpp:356-379 | every payload before that position is non-empty and parses, and the one at it does not |
| Connections.FirstUndeliverableAt | shared-src/Connection.cpp:356-379 | the scan continues past a deliverable payload and stops at the first undeliverable one |
| Connections.FirstUndeliverableAppend | shared-src/Connection.cpp:306-384 | after a run of deliverable payloads, the scan continues in the payloads that follow |
| Connections.CompleteFrame | shared-src/Connection.cpp:356-382 | a buffer holding one complete frame hands on that frame's payload, and the queued bytes decode to the remaining payloads |
| Connections.StepIdle | shared-src/Connection.cpp:306-335 | when the buffer holds no complete frame and nothing is queued, there is nothing to deliver and the buffer is the rest |
| Connections.ExpectedReceiveOf | shared-src/Connection.cpp:294-386 | the reference outcome of a receive pass in terms of the decoded payloads, the delivery count and the loss flag |
| Connections.NotificationsSamePrefix | shared-src/Connection.cpp:377-379 | the message notifications depend only on the payloads counted |
| Connections.NotificationsAppend | shared-src/Connection.cpp:377-379 | the notifications for payloads decoded in two parts are those of the first part followed by those of the second |
| Connections.SplitReceiveParts | shared-src/Connection.cpp:306-384 | splitting the decoded payloads leaves the delivery count and the open/lost outcome as for the second part |
| Connections.ReceiveSplitAcrossPolls | shared-src/Connection.cpp:294-386 | bytes split across two polls give the same payloads, events, buffered rest and loss outcome as one poll over all of them |
| Connections.SplitFrameDeliveredOnce | shared-src/Connection.cpp:306-384 | a frame arriving in two parts is only buffered by the first poll and handed on exactly once by the second, or closes the connection if it does not parse |
| Connections.FramesDeliveredInOrder | shared-src/Connection.cpp:306-384 | complete frames arriving together are all decoded in one poll, notified in arrival order, with nothing left buffered |
| Connections.Connection.Outgoing | shared-src/Connection.cpp:96-100 | a new outgoing connection is connecting, with zero timer, the given timeout and callbacks, and an empty buffer |
| Connections.Connection.Accepted | shared-src/Connection.cpp:117-130 | an accepted socket starts ACTIVE with no callbacks and an empty buffer |
| Connections.Connection.Connect | shared-src/Connection.cpp:39-101 | each failing setup call throws its own message, in the source's order; otherwise a fresh connecting connection on the socket |
| Connections.Connection.Destroy | shared-src/Connection.cpp:103-114 | the destructor closes an open socket |
| Connections.Connection.SetOnConnectionLostCallback | shared-src/Connection.cpp:389-392 | only the lost-connection callback changes |
| Connections.Connection.SetOnMsgReceivedCallback | shared-src/Connection.cpp:394-397 | only the message callback changes |
| Connections.Connection.SendNetworkMessage | shared-src/Connection.cpp:143-204 | throws on a closed connection or an empty encoding; sends exactly the frame when both sends complete; otherwise closes, reports the loss, and only a strict prefix of the frame reached the peer |
| Connections.Connection.PollConnect | shared-src/Connection.cpp:211-289 | a select failure throws and closes; a socket error fails the connect; a writable socket becomes ACTIVE and reports success once; otherwise the timer advances and the connect fails once the timer is strictly past the timeout |
| Connections.Connection.RecvInto | shared-src/Connection.cpp:311-358 | the bytes `recv` returns are appended to the buffer and removed from the kernel queue |
| Connections.Connection.Drop | shared-src/Connection.cpp:318-323 | a receive error closes the socket and marks the connection disconnected |
| Connections.Connection.ReadPrefix | shared-src/Connection.cpp:310-335 | asks for the rest of the length prefix; a zero-byte read or an error closes; with both bytes in, the size is what they announce |
| Connections.Connection.ReadPayload | shared-src/Connection.cpp:338-359 | asks for the rest of the payload; a zero-byte read or an error closes; the payload is complete exactly when the buffer holds the announced size |
| Connections.Connection.AssembleFrame | shared-src/Connection.cpp:307-359 | one pass of the reads yields the next decoded payload, or waits with the decoded rest buffered, or closes on an empty payload or a gone peer |
| Connections.Connection.ReceiveStep | shared-src/Connection.cpp:306-384 | one loop pass delivers the next payload when it parses, waits when no frame is complete, and closes on a payload that does not parse |
| Connections.Connection.ReceiveLoop | shared-src/Connection.cpp:306-385 | the loop notifies the deliverable payloads in order up to the first undeliverable one, and is lost exactly when the reference says so |
| Connections.Connection.Receive | shared-src/Connection.cpp:294-386 | a receive pass on an open connection does exactly what `ExpectedReceive` prescribes and keeps the decoded history consistent |
| Connections.Connection.Poll | shared-src/Connection.cpp:206-387 | a closed connection is untouched; a connecting one behaves as `PollConnect`; an open one receives as the reference prescribes |
| SessionLists.FirstIndexOf | server/src/SessionList.cpp:92-114 | the position a head-first walk stops at is within the list |
| SessionLists.FirstIndexOfSpec | server/src/SessionList.cpp:92-114 | the walk stops at the first occurrence, and reaches the end exactly when there is none |
| SessionLists.Session.constructor | server/src/SessionList.cpp:3-7 | a new session has no connection and no name |
| SessionLists.Session.SetName | server/src/SessionList.cpp:29-32 | the session's name becomes the given one |
| SessionLists.Session.SetConnection | server/src/SessionList.cpp:34-37 | the session's connection becomes the given one |
| SessionLists.SessionList.constructor | server/src/SessionList.cpp:44-47 | a new list is empty |
| SessionLists.SessionList.DistinctNodes | server/src/SessionList.cpp:60-90 | no session occurs twice in a well-formed list |
| SessionLists.SessionList.DistinctFrom | server/src/SessionList.cpp:76-90 | the session at a position occurs nowhere else in the list |
| SessionLists.SessionList.GenerateSession | server/src/SessionList.cpp:60-74 | a fresh session without connection or name becomes the head; the others keep their order and contents |
| SessionLists.SessionList.DestroySession | server/src/SessionList.cpp:76-90 | exactly the given session leaves the list, the others keep their order and contents, and its connection is closed |
| SessionLists.SessionList.Unlink | server/src/SessionList.cpp:78-87 | the pointer surgery removes exactly the session at its position and keeps the list well formed |
| SessionLists.SessionList.FindByConnection | server/src/SessionList.cpp:92-102 | returns the first session from the head with that connection, null exactly when none has it |
| SessionLists.SessionList.Conns | server/src/SessionList.cpp:92-102 | the connections of the sessions, position by position |
| SessionLists.SessionList.Names | server/src/SessionList.cpp:104-114 | the names of the sessions, position by position |
| SessionLists.SessionList.FindByName | server/src/SessionList.cpp:104-114 | returns the first session from the head named `n`, unnamed ones never matching; null exactly when none matches |
| SessionLists.SessionList.GetFirst | server/src/SessionList.cpp:116-119 | the head, null exactly for an empty list |
| SessionLists.SessionList.Clear | server/src/SessionList.cpp:49-58 | the destructor empties the list and closes the connection of every session it held |
| ServerSessions.EstablishedConnectionIsSilent | client/src/ServerSession.cpp:29-32 | the callbacks `open` binds make an established connection's receive pass report nothing, and a gone peer with nothing queued still closes it |
| ServerSessions.ServerSession.constructor | client/src/ServerSession.cpp:6-10 | a new session has no connection and no callback |
| ServerSessions.ServerSession.Destroy | client/src/ServerSession.cpp:12-17 | the destructor closes the connection, if any |
| ServerSessions.ServerSession.RegisterCallback | client/src/ServerSession.cpp:19-22 | the callback registration becomes the given one |
| ServerSessions.ServerSession.Open | client/src/ServerSession.cpp:24-42 | an existing connection is kept; otherwise a successful setup gives a fresh connecting connection, and a failed one reports CONNECTION_LOST and leaves none |
| ServerSessions.ServerSession.OnConnectSuccess | client/src/ServerSession.cpp:51-61 | only the session's own connection reports NAME_ACCEPTED |
| ServerSessions.ServerSession.OnConnectFail | client/src/ServerSession.cpp:63-75 | a foreign connection is ignored; the session's own is closed and dropped, and CONNECTION_LOST is reported |
| ServerSessions.ServerSession.Poll | client/src/ServerSession.cpp:44-49 | with no connection nothing happens; a connect ends in NAME_ACCEPTED, in CONNECTION_LOST with the connection gone, or in a thrown poll error; a pending connect keeps timing; a closed connection is left unchanged; an established one receives as `ExpectedReceive` prescribes, reporting nothing and staying in place even when the receive closes it |
| BoxSelectors.Prev | client/src/BoxSelector.cpp:153-164 | the left arrow's target is the previous position, wrapping from the first to the last |
| BoxSelectors.Next | client/src/BoxSelector.cpp:165-168 | the right arrow's target is the next position, wrapping from the last to the first |
| BoxSelectors.StepsCancel | client/src/BoxSelector.cpp:144-169 | a left step and a right step undo each other |
| BoxSelectors.Item.constructor | client/src/BoxSelector.cpp:99-105 | a new item has its text and number and no successor |
| BoxSelectors.BoxSelector.constructor | client/src/BoxSelector.cpp:34-36 | a new box has no items and nothing selected |
| BoxSelectors.BoxSelector.AddItem | client/src/BoxSelector.cpp:97-114 | appends an item numbered by its position; the first item is selected regardless of its flag, a later one only when flagged |
| BoxSelectors.BoxSelector.GetSelectedIndex | client/src/BoxSelector.cpp:116-120 | the selected position, -1 exactly when there are no items |
| BoxSelectors.BoxSelector.OnMousePressed | client/src/BoxSelector.cpp:144-169 | left selects the previous item cyclically, right the next cyclically; the items never change; a right-arrow press on an empty box is reported as a crash (the source follows a null `selectedItem`), with nothing changed |
| MenuTextBoxes.EditKeepsBound | client/src/MenuTextBox.cpp:73-84 | editing keeps the text within 15 characters, all digits or capital letters |
| MenuTextBoxes.BackspaceUndoesAppend | client/src/MenuTextBox.cpp:76-83 | backspace undoes an accepted character, and a character is ignored exactly when the box is full |
| MenuTextBoxes.MenuTextBox.GetContent | client/src/MenuTextBox.h:38 | the characters typed, at most `maxChars` of them, all accepted ones |
| MenuTextBoxes.MenuTextBox.constructor | client/src/MenuTextBox.cpp:12-20 | a new box is empty and enabled, with room for `maxChars` characters and the terminator |
| MenuTextBoxes.MenuTextBox.SetSize | client/src/MenuTextBox.cpp:36-46 | the width is at least the height, and the font size is the height |
| MenuTextBoxes.MenuTextBox.SetEnabled | client/src/MenuTextBox.cpp:68-71 | records the enabled flag |
| MenuTextBoxes.MenuTextBox.OnKeyPressed | client/src/MenuTextBox.cpp:73-84 | the buffer's text becomes `Edit` of the old text, and stays terminated and bounded |
| SelectableButtons.SelectableButton.constructor | src/SelectableButton.cpp:3-15 | a new button has the given selection, an empty rectangle and no callback |
| SelectableButtons.SelectableButton.SetHeight | src/SelectableButton.cpp:17-21 | the width follows the height at the texture's aspect ratio |
| SelectableButtons.SelectableButton.SetSelected | src/SelectableButton.cpp:38-41 | stores the selection |
| SelectableButtons.SelectableButton.IsSelected | src/SelectableButton.cpp:43-46 | returns the selection |
| SelectableButtons.SelectableButton.SetCallback | src/SelectableButton.cpp:48-51 | records whether a callback is registered |
| SelectableButtons.SelectableButton.OnMousePressed | src/SelectableButton.cpp:54-65 | a hit selects and nothing deselects; the callback fires exactly on a rising edge with a callback registered |
| Windows.ModesIncreasing | client/src/Window.cpp:13-34 | the table has its declared 12 entries, each strictly wider and taller than the one before |
| Windows.NoneFitAfterMisfit | client/src/Window.cpp:16-20 | in an increasing table, nothing after a misfit fits |
| Windows.FirstMisfitCountsFits | client/src/Window.cpp:36-50 | in an increasing table, the first misfit's position is the number of fitting modes |
| Windows.GetNumWindowedConfigModes | client/src/Window.cpp:36-50 | the first mode wider or taller than the monitor, or 12; every mode before it fits; it equals the count of fitting modes |
| Windows.FoldKey | client/src/Window.cpp:163-166 | lower-case letter codes become the upper-case ones, other codes are kept |
| Windows.FoldKeyUpper | client/src/Window.cpp:163-166 | folding never yields a lower-case letter and is idempotent |
| Windows.ForwardKeys | client/src/Window.cpp:160-169 | the scene receives the folded keys in order, up to the first code that is not positive |
| Windows.SizeDecision | client/src/Window.cpp:214-220 | resizes exactly when the requested size differs from the current; 0x0 means the monitor's size |
| Windows.SizeDecisionSettles | client/src/Window.cpp:214-220 | an explicit size needs no second resize; a 0x0 request always resizes again |
| MainMenus.LatchAllIgnoresOthers | client/src/MainMenu.cpp:699-711 | session events that are not results leave the held result unchanged |
| MainMenus.LatchAllLastResult | client/src/MainMenu.cpp:699-711 | the held result is the last result event reported |
| MainMenus.InitialFadeEnds | client/src/MainMenu.cpp:229-243 | the initial fade ends in the top-level menu exactly when its stopwatch reaches 1.2 s |
| MainMenus.FadeCompletes | client/src/MainMenu.cpp:245-264 | a fade reaches its target on the first update at 0.4 s or later; heading for the name input clears both errors |
| MainMenus.ResultHeldUntilMinLoad | client/src/MainMenu.cpp:609-624 | a result waits until the spinner has turned 1 s; then a failure or a taken name stops the spinner with its error, and an acceptance fades to the top level |
| MainMenus.SpinsUntilResult | client/src/MainMenu.cpp:609-624 | without a result event, any run of updates keeps the spinner turning, the inputs as they were and no error shown |
| MainMenus.ConnectFailureKeepsSpinning | client/src/MainMenu.cpp:609-624 | an update that returns CONNECTION_LOST, while the name input waits with no result held, only advances the spinner's stopwatch: no result, no error, inputs unchanged |
| MainMenus.ConnectFailureIsNoResult | client/src/ServerSession.cpp:36-40 | the report of a failed connect is not a result the menu waits for |
| MainMenus.ApplyRequest | client/src/MainMenu.cpp:510-525 | apply requests full screen at the monitor size, the selected windowed mode counted from the largest, or nothing with an empty box |
| MainMenus.ApplyInvertsInsertion | client/src/MainMenu.cpp:156-159 | the mode inserted at a box position is the one apply requests for that position |
| MainMenus.AppliedModeIsShown | client/src/MainMenu.cpp:519-524 | the label at the selected position is the label of the mode apply requests |
| MainMenus.ShowsAppend | client/src/MainMenu.cpp:156-160 | adding an item with a label keeps the items showing the labels |
| MainMenus.MainMenu.NewResolutionBox | client/src/MainMenu.cpp:154-160 | the box lists the first `n` modes from the last down, each under its label, with the first added selected |
| MainMenus.MainMenu.FittingModesBox | client/src/MainMenu.cpp:154-160 | the box lists exactly the fitting modes, from the largest, labelled as `std::to_string` writes them |
| MainMenus.MainMenu.NewModeButtons | client/src/MainMenu.cpp:144-149 | the windowed button is selected exactly when the window is not in full screen, the full-screen one exactly when it is |
| MainMenus.MainMenu.constructor | client/src/MainMenu.cpp:95-176 | initial fade, no result, no error, the mode buttons radio-exclusive, the box listing the fitting modes with the largest selected, an empty 15-character text box, a session with the menu's callback |
| MainMenus.MainMenu.Destroy | client/src/MainMenu.cpp:178-194 | deleting the menu deletes its session, and with it the session's connection, whose socket ends closed |
| MainMenus.MainMenu.InitiateFadeToState | client/src/MainMenu.cpp:547-564 | the fade runs from the current state to the target with the stopwatch at zero; the name input clears both errors |
| MainMenus.MainMenu.OnSessionEvent | client/src/MainMenu.cpp:699-711 | only failure, acceptance and rejection become the held result |
| MainMenus.MainMenu.DeliverSessionEvents | client/src/MainMenu.cpp:699-711 | the events reach the menu in the order reported, and the held result is their latch |
| MainMenus.MainMenu.SetNameLoading | client/src/MainMenu.cpp:730-732 | the spinner shows exactly while the text box and submit are disabled |
| MainMenus.MainMenu.HandleNameSubmissionResult | client/src/MainMenu.cpp:726-750 | failure or rejection stops loading, re-enables the inputs and shows its error; acceptance fades to the top level |
| MainMenus.MainMenu.UpdateForState | client/src/MainMenu.cpp:609-624 | on the name input, the stopwatch runs while loading, and a held result is handled and dropped once it reaches 1 s |
| MainMenus.MainMenu.UpdateState | client/src/MainMenu.cpp:227-269 | the state switch of `update` advances the fades and updates the submenus shown |
| MainMenus.MainMenu.Update | client/src/MainMenu.cpp:224-269 | a failing poll leaves the menu untouched; otherwise the reported events are latched, then the state advances. The poll fails exactly on a `select` failure during a connect, which keeps the connection, closed. A completed connect returns NAME_ACCEPTED and keeps the connection, open. A failed or timed-out connect returns CONNECTION_LOST and drops the connection. A pending connect within the timeout returns no event, keeps the connection connecting and advances its timer. A closed connection stays unchanged, and an established one receives as `ExpectedReceive` prescribes |
| MainMenus.MainMenu.PollSession | client/src/MainMenu.cpp:225 | the session's poll, with the menu's callback registered: the outcome for each phase of the connection and each connect probe, the returned events and the connection afterwards |
| MainMenus.MainMenu.UpdateFields | client/src/MainMenu.cpp:227-269 | after the poll, the menu's fields become `MenuUpdate` of the reported events: they are latched, then the state switch runs |
| MainMenus.MainMenu.TriggerNameSubmission | client/src/MainMenu.cpp:713-724 | with a name typed, starts the spinner, disables the inputs, clears the errors and opens the session; an empty name changes nothing |
| MainMenus.MainMenu.OpenSession | client/src/MainMenu.cpp:722 | opening creates a connection exactly when setup succeeds, and a failed connect leaves the held result unchanged |
| MainMenus.MainMenu.OnKeyPressed | client/src/MainMenu.cpp:464-477 | only the name input takes keys: enter submits, any other key edits the text box |
| MainMenus.MainMenu.OnZoomSelectorClicked | client/src/MainMenu.cpp:479-536 | each selector's click changes the fields as `ZoomClick` says; only apply requests a window configuration |
| MainMenus.MainMenu.OnToplevelSelected | client/src/MainMenu.cpp:481-509 | play online re-enables the name input and fades to it, settings fades to the settings, exit sets the return code, other indices do nothing |
| MainMenus.MainMenu.ApplySettings | client/src/MainMenu.cpp:510-525 | full screen when that button is selected; otherwise the windowed mode whose label the box shows selected, or nothing for an empty box |
| MainMenus.MainMenu.OnSelectableButtonSelected | client/src/MainMenu.cpp:538-545 | selecting one window-mode button deselects the other |
| MainMenus.MainMenu.PressModeButton | client/src/MainMenu.cpp:448-449 | a press on a mode button selects it, and exactly one of the two stays selected |
| Paths.LastSeparator | client/src/Util.cpp:23-31 | the position of the last '/' or '\\', or -1 when there is none |
| Paths.FindLastSeparator | client/src/Util.cpp:24-31 | the scanning loop finds exactly that position |
| Paths.ExeDirSplitsPath | client/src/Util.cpp:33-34 | the path is the kept directory, one separator and a bare name; without a separator the whole path is kept |
| Paths.ExeDirOfJoin | client/src/Util.cpp:19-35 | the directory of a directory joined with a bare name is that directory |
| Paths.ResourceDirectory | client/src/Util.cpp:37-44 | a resource sits in `exeDir/res` in a macOS release build and in `res` otherwise, under its own name |
| Paths.ResourcesBesideExecutable | client/src/Util.cpp:37-44 | launched as `dir/exe`, a macOS release build looks for resources in `dir/res` |
| ClientUtil.DirectoryDelim | client/src/Util.cpp:9-15 | the delimiter is a directory separator on every platform |
| ClientUtil.PersistPathUsesArgumentOnlyOnWindows | client/src/Util.cpp:53-79 | two arguments give the same persistent path exactly when they are equal or the build is not for Windows |
| ClientUtil.PrefsPathLocation | client/src/Util.cpp:46-51 | a preferences file sits directly in the persistent directory for `preferences`; off Windows, the application's directory followed by a doubled slash |
| ClientUtil.HomeDirReadOnce | client/src/Util.cpp:65-67 | once cached non-empty, the home directory never changes, and it stays empty only while `HOME` is empty |
| ClientUtil.Util.constructor | client/src/Util.cpp:14-17 | both directories start empty |
| ClientUtil.Util.RegisterRunArgs | client/src/Util.cpp:19-35 | `exeDir` becomes the directory part of `argv[0]` |
| ClientUtil.Util.FormResourcePath | client/src/Util.cpp:37-44 | the resource path for the build |
| ClientUtil.Util.FormPersistDataPath | client/src/Util.cpp:53-79 | off Windows the home directory is read only while the cache is empty; the path is the platform's persistent path |
| ClientUtil.Util.FormPrefsPath | client/src/Util.cpp:46-51 | the persistent path for `preferences`, the platform's delimiter, then the name |
| SrcUtil.Util.constructor | src/Util.cpp:3 | the executable directory starts empty |
| SrcUtil.Util.RegisterRunArgs | src/Util.cpp:5-21 | `exeDir` becomes the directory part of `argv[0]` |
| SrcUtil.Util.FormResourcePath | src/Util.cpp:23-30 | the path of a bare resource name lies in `exeDir/res` in a macOS release build and in `res` otherwise |

## Left out

- **Windows build branches.** The Winsock branches of `Connection` and Winsock init/quit are not modelled; only the POSIX build is.
- **`Listener`.** It is an accept loop over real sockets, and its code would not compile as shown.
- **Server `main`.** The server's infinite accept loop is not modelled.
- **Socket system calls.** They are results passed in.
- **`recv` returning less than asked.** A kernel that returns fewer bytes than are queued and requested is not modelled: `recv` returns everything queued that fits.
- **`select` interrupted by EINTR.** It is treated as no result.
- **`getPeerIp` and `getPeerPort`.** These only format the peer address.
- **Protobuf.** `SerializeAsString` is the byte string passed in. `ParseFromArray` is the parameter `parse`.
- **Unimplemented session behaviour.** The heartbeat, suspension and resume, name request and reply, `ServerSession::close`, and the retry flags are declared in headers without an implementation.
- **Callback reentrancy.** `onConnectFail` deletes the connection whose `poll` called it. The model applies the callback after `Connection.Poll` returns its events.
- **The connection's fixed server address and port.** `open` uses 127.0.0.1 and 44444; only the 10-second timeout is kept.
- **Floating-point geometry and rendering.** Opacities, the background pan, layout (`onSizeChangedFrom`), zoom-selector animation, `BoxSelector::setHeight`, `update` and `render`, the loading spinner, and all rendering are not modelled. Floats are `real`s.
- **Zoom selectors.** A zoom selector is reduced to which one was clicked and with which index, plus the submit selector's enabled flag. The client's zoom selector is not part of this model, so the flag's initial value is an assumption: the model's `MainMenu` constructor starts it enabled. The menu sets the flag only at client/src/MainMenu.cpp:493, 718, 732 and 739, and all later states follow from those calls.
- **Mouse routing.** `onMouseButtonPressed` is only modelled for the window-mode buttons (`PressModeButton`).
- **Window toggles and persistence.** The full-screen toggling, window positioning and the write of the configuration to the preferences file in `updateConfiguration` are not modelled. The same goes for the window's constructor and its preference read.
- **`windowRequestCallback`.** The configuration "apply" hands to it is the returned `request`.
- **Monitor size.** It is fixed for a menu's lifetime. Apply re-counts the fitting modes in the source.
- **Widget destructors.** The destructors of `BoxSelector` and `MenuTextBox` only free memory. Of what the `MainMenu` destructor deletes, only the session does more (client/src/MainMenu.cpp:193). That part is modelled by `MainMenus.MainMenu.Destroy`; the rest only frees memory.
- SelectableButtons.SelectableButton.SetHeight: requires a positive texture height. The source divides by the texture's height unchecked (src/SelectableButton.cpp:20). A texture that failed to load has height 0, and the float width then becomes infinite or NaN, which the model's `real` arithmetic cannot represent.
- **Uninitialised fields.** The fields the `MainMenu` constructor leaves uninitialised (the fade states, the loading flag, the submission stopwatch) start as the model's constructor states. So do the accepted connection's `timer` and `openTimeout`.
- **`std::to_string`.** It is modelled by `DecimalString` and `IntString`.
- **Constructor order.** The model's `MainMenu` constructor builds the resolution box before the session and the buttons. These are fresh objects, so the order is not observable.
- **Filesystem and environment.** `initDirectoriesForPath` creates directories on disk and is not modelled. `getenv` is a parameter, and an unset variable, for which the source constructs a string from a null pointer, is not modelled.
- MenuTextBoxes.MenuTextBox.GetContent: `getContent` is only declared (client/src/MenuTextBox.h:38), and `MenuTextBox.cpp` has no definition of it. The model takes it to return the characters before the terminator. Its callers at client/src/MainMenu.cpp:715 and :722 compare it with "" and pass it on as the name, which fits that reading.
- **Receive buffer size.** The declaration of the receive buffer is not part of this model. Its size is taken as the largest frame: 2 + 65535 bytes.
- **raylib key codes.** The raylib header that defines the key codes is not part of this model; KEY_ENTER is 257 and KEY_BACKSPACE is 259.

=== FILE: box_selector.dfy ===
/**
 * The selection logic of a box selector (client/src/BoxSelector.cpp): a
 * singly linked list of items, each numbered by its insertion order, one of
 * which is selected; the arrows to either side of the box step the
 * selection backwards or forwards, wrapping around at the ends.
 *
 * The ghost sequence `items` is the list from the head; a mouse press is
 * reduced to whether it hit the left arrow and whether it hit the right one.
 */
module BoxSelectors {

  /** The position before `i` in a cycle of `n` positions. */
  function Prev(i: nat, n: nat): (r: nat)
    requires i < n
    ensures r < n && (r + 1 == i || (i == 0 && r == n - 1))
  {
    if i == 0 then n - 1 else i - 1
  }

  /** The position after `i` in a cycle of `n` positions. */
  function Next(i: nat, n: nat): (r: nat)
    requires i < n
    ensures r < n && (r == i + 1 || (i == n - 1 && r == 0))
  {
    if i + 1 == n then 0 else i + 1
  }

  /** Stepping back and then forward, or forward and then back, returns to the start. */
  lemma StepsCancel(i: nat, n: nat)
    requires i < n
    ensures Next(Prev(i, n), n) == i && Prev(Next(i, n), n) == i
  {
  }

  /** One entry of the list: its text, its insertion number and its successor. */
  class Item {
    const text: string
    const index: int
    var next: Item?

    constructor (text: string, index: int)
      ensures this.text == text && this.index == index && next == null
    {
      this.text := text;
      this.index := index;
      next := null;
    }
  }

  class BoxSelector {
    var itemListHead: Item?
    var itemListTail: Item?
    var selectedItem: Item?
    var nextItemIndex: int
    /** The items from the head to the tail. */
    ghost var items: seq<Item>
    /** The position of the selected item, -1 when there is none. */
    ghost var sel: int

    /** The item at position `i`, null past either end. */
    ghost function At(i: int): Item?
      reads this
    {
      if 0 <= i < |items| then items[i] else null
    }

    /**
     * The list runs from `itemListHead` to `itemListTail`, every item is
     * numbered by its position, the next number is the item count, and an
     * item is selected exactly when there is one.
     */
    ghost predicate Valid()
      reads this, items
    {
      itemListHead == At(0) && itemListTail == At(|items| - 1)
      && nextItemIndex == |items|
      && (forall i {:trigger items[i].next} :: 0 <= i < |items| ==> items[i].next == At(i + 1))
      && (forall i {:trigger items[i].index} :: 0 <= i < |items| ==> items[i].index == i)
      && (items == [] ==> sel == -1 && selectedItem == null)
      && (items != [] ==> 0 <= sel < |items| && selectedItem == items[sel])
    }

    /** The constructor's list state: no items and nothing selected. */
    constructor ()
      ensures Valid() && items == [] && selectedItem == null && nextItemIndex == 0
    {
      itemListHead, itemListTail := null, null;
      selectedItem := null;
      nextItemIndex := 0;
      items := [];
      sel := -1;
    }

    /**
     * `addItem`: appends an item numbered by the count of earlier items.
     * The first item is selected whatever its flag says; a later one only
     * when its flag is set.
     */
    method AddItem(content: string, selected: bool)
      requires Valid()
      modifies this, itemListTail
      ensures Valid()
      ensures |items| == |old(items)| + 1 && items[..|old(items)|] == old(items)
      ensures fresh(items[|old(items)|])
      ensures items[|old(items)|].text == content && items[|old(items)|].index == |old(items)|
      ensures sel == if old(items) == [] || selected then |old(items)| else old(sel)
    {
      var newItem := new Item(content, nextItemIndex);
      nextItemIndex := nextItemIndex + 1;
      if itemListTail == null {
        itemListHead := newItem;
        selectedItem := newItem;
        sel := 0;
      } else {
        itemListTail.next := newItem;
        if selected {
          selectedItem := newItem;
          sel := |items|;
        }
      }
      itemListTail := newItem;
      items := items + [newItem];
      forall i | 0 <= i < |items|
        ensures items[i].next == At(i + 1)
      {
        if i + 1 < |old(items)| {
          assert items[i] == old(items)[i] && items[i].index != |old(items)| - 1;
          assert old(items)[i].next == old(items)[i + 1];
        }
      }
    }

    /** `getSelectedIndex`: the number of the selected item, -1 exactly when there are no items. */
    method GetSelectedIndex() returns (r: int)
      requires Valid()
      ensures r == sel
      ensures r == -1 <==> items == []
      ensures items != [] ==> 0 <= r < |items| && items[r] == selectedItem
    {
      if selectedItem == null {
        return -1;
      }
      return selectedItem.index;
    }

    /**
     * `onMousePressed`: the left arrow selects the previous item, wrapping
     * from the first to the last, and does nothing without items; otherwise
     * the right arrow selects the next item, wrapping from the last to the
     * first. The list itself never changes. The right arrow of an empty box
     * follows the null `selectedItem`: that press crashes the program, and
     * `crashed` reports it, with nothing changed.
     */
    method OnMousePressed(leftHit: bool, rightHit: bool) returns (crashed: bool)
      requires Valid()
      modifies this`selectedItem, this`sel
      ensures Valid()
      ensures crashed <==> !leftHit && rightHit && items == []
      ensures leftHit && items != [] ==> sel == Prev(old(sel), |items|)
      ensures !leftHit && rightHit && items != [] ==> sel == Next(old(sel), |items|)
      ensures items == [] || (!leftHit && !rightHit) ==> sel == old(sel) && selectedItem == old(selectedItem)
    {
      crashed := false;
      if leftHit {
        if selectedItem == null {
          return;
        }
        var targetIndex := selectedItem.index - 1;
        if targetIndex == -1 {
          selectedItem := itemListTail;
          sel := |items| - 1;
          return;
        }
        selectedItem := itemListHead;
        ghost var j := 0;
        while selectedItem.index != targetIndex
          invariant 0 <= j <= targetIndex && selectedItem == items[j]
          decreases targetIndex - j
        {
          selectedItem := selectedItem.next;
          j := j + 1;
        }
        sel := j;
      } else if rightHit {
        if selectedItem == null {
          return true;
        }
        selectedItem := selectedItem.next;
        if selectedItem == null {
          selectedItem := itemListHead;
        }
        sel := Next(sel, |items|);
      }
    }
  }
}

=== FILE: client_util.dfy ===
/**
 * The client's `Util` (client/src/Util.cpp): the executable's directory,
 * resource paths, and the per-user directory where preferences persist.
 *
 * The static members `exeDir` and `homeDir` are the fields of one `Util`
 * object. The build flags (the target platform and whether this is a macOS
 * release build) are constants of that object. The environment variables
 * `LOCALAPPDATA` and `HOME` are parameters, read at the call.
 */
module ClientUtil {
  import Paths

  /** The platform selected by `COMPILING_ON_WINDOWS` and `COMPILING_ON_OSX`. */
  datatype Platform = Windows | Osx | Linux

  const PREFS_DIRECTORY_NAME: string := "preferences"

  /** `DIRECTORY_DELIM`: a backslash on Windows, a slash elsewhere. */
  function DirectoryDelim(platform: Platform): (c: char)
    ensures Paths.IsSeparator(c)
  {
    if platform == Windows then '\\' else '/'
  }

  /**
   * The path `formPersistDataPath` builds. On Windows, `relativePath` goes
   * under `LocalLow\abalis3\forbidden-desert\` of the local application
   * data directory. Elsewhere, the result is the application's directory
   * under the home directory, and `relativePath` plays no part.
   */
  function PersistDataPath(platform: Platform, homeDir: string, localAppData: string,
                           relativePath: string): string
  {
    match platform
    case Windows => localAppData + "Low\\abalis3\\forbidden-desert\\" + relativePath
    case Osx => homeDir + "/Library/Application Support/abalis3/forbidden-desert/"
    case Linux => homeDir + "/.abalis3/forbidden-desert/"
  }

  /** The path `formPrefsPath` builds: the persistent directory for preferences, the delimiter, then `relativePath`. */
  function PrefsPath(platform: Platform, homeDir: string, localAppData: string, relativePath: string): string
  {
    PersistDataPath(platform, homeDir, localAppData, PREFS_DIRECTORY_NAME)
    + [DirectoryDelim(platform)] + relativePath
  }

  /** The cached home directory: read from `HOME` only while the cache is empty. */
  function CachedHomeDir(homeDir: string, home: string): string
  {
    if homeDir == "" then home else homeDir
  }

  /**
   * Two arguments give the same persistent path exactly when they are
   * equal or the build is not for Windows.
   */
  lemma PersistPathUsesArgumentOnlyOnWindows(platform: Platform, homeDir: string, localAppData: string,
                                             a: string, b: string)
    ensures PersistDataPath(platform, homeDir, localAppData, a) == PersistDataPath(platform, homeDir, localAppData, b)
            <==> platform != Windows || a == b
  {
    if platform == Windows {
      var prefix := localAppData + "Low\\abalis3\\forbidden-desert\\";
      var pa := PersistDataPath(platform, homeDir, localAppData, a);
      var pb := PersistDataPath(platform, homeDir, localAppData, b);
      assert pa[|prefix|..] == a;
      assert pb[|prefix|..] == b;
    }
  }

  /**
   * A preferences file with a bare name lands directly in the directory
   * `formPersistDataPath` gives for `preferences`. On Windows that
   * directory is `preferences` inside the application's directory. Elsewhere
   * it is the application's directory itself, already ending in a slash,
   * so the path holds a doubled slash before the file name.
   */
  lemma PrefsPathLocation(platform: Platform, homeDir: string, localAppData: string, relativePath: string)
    requires Paths.NoSeparator(relativePath)
    ensures Paths.ExeDir(PrefsPath(platform, homeDir, localAppData, relativePath))
            == PersistDataPath(platform, homeDir, localAppData, PREFS_DIRECTORY_NAME)
    ensures platform != Windows ==>
              PrefsPath(platform, homeDir, localAppData, relativePath)
              == PersistDataPath(platform, homeDir, localAppData, "") + "/" + relativePath
  {
    Paths.ExeDirOfJoin(PersistDataPath(platform, homeDir, localAppData, PREFS_DIRECTORY_NAME),
                       DirectoryDelim(platform), relativePath);
    PersistPathUsesArgumentOnlyOnWindows(platform, homeDir, localAppData, PREFS_DIRECTORY_NAME, "");
  }

  /**
   * Once the cache holds a nonempty directory it never changes again,
   * whatever `HOME` says later; it stays empty only while `HOME` is empty.
   */
  lemma HomeDirReadOnce(homeDir: string, home: string, laterHome: string)
    ensures CachedHomeDir(homeDir, home) != "" ==>
              CachedHomeDir(CachedHomeDir(homeDir, home), laterHome) == CachedHomeDir(homeDir, home)
    ensures CachedHomeDir(homeDir, home) == "" <==> homeDir == "" && home == ""
  {
  }

  class Util {
    /** The build's target platform. */
    const platform: Platform
    /** `OSX_RELEASE_BUILD`. */
    const osxRelease: bool
    var exeDir: string
    /** Cached `HOME`; a static member only off Windows, which Windows never touches. */
    var homeDir: string

    /** The statics before any call: both directories empty. */
    constructor (platform: Platform, osxRelease: bool)
      ensures this.platform == platform && this.osxRelease == osxRelease
      ensures exeDir == "" && homeDir == ""
    {
      this.platform := platform;
      this.osxRelease := osxRelease;
      exeDir := "";
      homeDir := "";
    }

    /** `registerRunArgs`: keeps the directory part of `argv[0]`, or all of it without a separator. */
    method RegisterRunArgs(argv0: string)
      requires Paths.IsCString(argv0)
      modifies this`exeDir
      ensures exeDir == Paths.ExeDir(argv0)
    {
      var lastSlash := Paths.FindLastSeparator(argv0);
      exeDir := Paths.SubstrFromStart(argv0, lastSlash);
    }

    /** `formResourcePath`. */
    method FormResourcePath(resourceName: string) returns (path: string)
      ensures path == Paths.ResourcePath(exeDir, resourceName, osxRelease)
    {
      if osxRelease {
        path := exeDir + "/res/" + resourceName;
      } else {
        path := "res/" + resourceName;
      }
    }

    /**
     * `formPersistDataPath`: off Windows, first fills the home-directory
     * cache from `HOME` if it is empty; then builds the path.
     */
    method FormPersistDataPath(relativePath: string, localAppData: string, home: string) returns (path: string)
      modifies this`homeDir
      ensures homeDir == if platform == Windows then old(homeDir) else CachedHomeDir(old(homeDir), home)
      ensures path == PersistDataPath(platform, homeDir, localAppData, relativePath)
    {
      if platform == Windows {
        path := localAppData;
        path := path + "Low\\abalis3\\forbidden-desert\\";
        path := path + relativePath;
      } else {
        if homeDir == "" {
          homeDir := home;
        }
        if platform == Osx {
          path := homeDir + "/Library/Application Support/abalis3/forbidden-desert/";
        } else {
          path := homeDir + "/.abalis3/forbidden-desert/";
        }
      }
    }

    /** `formPrefsPath`: the persistent path for `preferences`, the delimiter, then `relativePath`. */
    method FormPrefsPath(relativePath: string, localAppData: string, home: string) returns (path: string)
      modifies this`homeDir
      ensures homeDir == if platform == Windows then old(homeDir) else CachedHomeDir(old(homeDir), home)
      ensures path == PrefsPath(platform, homeDir, localAppData, relativePath)
    {
      var fullPrefsPath := FormPersistDataPath(PREFS_DIRECTORY_NAME, localAppData, home);
      path := fullPrefsPath + [DirectoryDelim(platform)] + relativePath;
    }
  }
}

=== FILE: connection.dfy ===
/**
 * A nonblocking TCP connection (shared-src/Connection.cpp, POSIX build).
 *
 * The operating system is an input: what `inet_pton`, `socket`, `fcntl` and
 * `connect` report when a connection is set up, what `select`/`getsockopt`
 * report while it connects, how many bytes `send` accepts, and which bytes
 * the kernel holds for `recv`. Protobuf parsing is the parameter `parse`.
 * A callback invocation is an event in the sequence a method returns, and is
 * only emitted when that callback is registered.
 */
module Connections {
  import opened Wrappers
  import opened Wire

  /** Room for a length prefix and the largest payload it can announce. */
  const RECV_BUFFER_SIZE: nat := 2 + MAX_FRAME_LEN

  datatype State = Disconnected | Suspended | Active

  /** Which of the four callbacks are registered (non-null). */
  datatype Callbacks = Callbacks(
    onConnectSuccess: bool,
    onConnectFail: bool,
    onConnectionLost: bool,
    onMsgReceived: bool)

  const NO_CALLBACKS := Callbacks(false, false, false, false)

  /** One callback invocation; `M` is the parsed message type. */
  datatype Event<M> = ConnectSuccess | ConnectFail | ConnectionLost | MsgReceived(msg: M)

  /** The event, when its callback is registered. */
  function Notice<M>(registered: bool, e: Event<M>): seq<Event<M>>
  {
    if registered then [e] else []
  }

  /**
   * The phase a connection is in: connecting is encoded in the source as
   * `currentState == DISCONNECTED` with an open socket.
   */
  datatype Phase = Connecting | Open | Closed

  /** What `connect` on the nonblocking socket reported. */
  datatype ConnectCall = ConnectedAtOnce | InProgress | ConnectRefused

  /** The results of the system calls made while setting a connection up. */
  datatype SetupReport = SetupReport(
    addressParses: bool,   // inet_pton(...) > 0
    socketFd: int,         // the value socket(...) returned
    nonblockingSet: bool,  // fcntl(F_SETFL, O_NONBLOCK) != -1
    connectCall: ConnectCall)

  /**
   * What the zero-timeout `select` and `getsockopt(SO_ERROR)` say about a
   * connect in progress. An interrupted `select` (EINTR) reads as `Pending`.
   */
  datatype ConnectProbe = Pending | Writable | SocketError | SelectFailed

  /** What the kernel reports once its receive queue is empty. */
  datatype PeerState = PeerOpen | PeerClosed | PeerFailed

  /** The outcome of one `recv` call. */
  datatype RecvReply = Data(bytes: seq<byte>) | WouldBlock | Shutdown | RecvError

  function Min(a: nat, b: nat): nat
  {
    if a <= b then a else b
  }

  /**
   * `recv(fd, buf, n, 0)` on a nonblocking stream socket whose kernel queue
   * holds `queued`: as many queued bytes as fit; with nothing queued, EAGAIN
   * while the peer is open, 0 after an orderly shutdown, -1 after an error.
   * A request for zero bytes returns 0, which the receiver reads as a close.
   */
  function KernelRecv(queued: seq<byte>, peer: PeerState, n: nat): (r: RecvReply)
    ensures r.Data? <==> n > 0 && queued != []
    ensures r.Data? ==> 0 < |r.bytes| <= n && r.bytes <= queued
    ensures r.Data? && |r.bytes| < n ==> r.bytes == queued
    ensures r == WouldBlock <==> n > 0 && queued == [] && peer == PeerOpen
  {
    if n == 0 then Shutdown
    else if queued != [] then Data(queued[..Min(n, |queued|)])
    else
      match peer
      case PeerOpen => WouldBlock
      case PeerClosed => Shutdown
      case PeerFailed => RecvError
  }

  /** A received payload can be handed on: its read is not empty and it parses. */
  predicate Deliverable<M>(payload: seq<byte>, parse: seq<byte> -> Option<M>)
  {
    payload != [] && parse(payload).Some?
  }

  /** The index of the first payload the receiver cannot hand on, or `|ps|`. */
  function FirstUndeliverable<M>(ps: seq<seq<byte>>, parse: seq<byte> -> Option<M>): (k: nat)
    ensures k <= |ps|
  {
    if ps == [] || !Deliverable(ps[0], parse) then 0
    else 1 + FirstUndeliverable(ps[1..], parse)
  }

  /** Every payload before the index can be handed on, and the one at it cannot. */
  lemma {:induction false} FirstUndeliverableSpec<M>(ps: seq<seq<byte>>, parse: seq<byte> -> Option<M>)
    ensures var k := FirstUndeliverable(ps, parse);
            (forall i :: 0 <= i < k ==> Deliverable(ps[i], parse))
            && (k < |ps| ==> !Deliverable(ps[k], parse))
  {
    if ps != [] && Deliverable(ps[0], parse) {
      FirstUndeliverableSpec(ps[1..], parse);
      var k := FirstUndeliverable(ps, parse);
      forall i | 0 <= i < k
        ensures Deliverable(ps[i], parse)
      {
        if i > 0 {
          assert ps[i] == ps[1..][i - 1];
        }
      }
      if k < |ps| {
        assert ps[k] == ps[1..][k - 1];
      }
    }
  }

  /** Where the scan for an undeliverable payload stops, seen from a position `j` before it. */
  lemma FirstUndeliverableAt<M>(ps: seq<seq<byte>>, parse: seq<byte> -> Option<M>, j: nat)
    requires j <= FirstUndeliverable(ps, parse)
    ensures j < |ps| && Deliverable(ps[j], parse) ==> j < FirstUndeliverable(ps, parse)
    ensures j == |ps| || !Deliverable(ps[j], parse) ==> j == FirstUndeliverable(ps, parse)
  {
    FirstUndeliverableSpec(ps, parse);
  }

  /** `onMsgReceived` invocations for those of the first `n` payloads of `ps` that parse, in order. */
  function Notifications<M>(ps: seq<seq<byte>>, n: nat, parse: seq<byte> -> Option<M>, registered: bool): seq<Event<M>>
    requires n <= |ps|
  {
    if !registered || n == 0 then []
    else
      var last := parse(ps[n - 1]);
      Notifications(ps, n - 1, parse, registered) + (if last.Some? then [MsgReceived(last.value)] else [])
  }

  /**
   * A buffer holding exactly one complete frame, followed by the queued
   * bytes, decodes to that frame's payload and then to the queued bytes.
   */
  lemma CompleteFrame(frame: seq<byte>, q: seq<byte>, ps: seq<seq<byte>>, j: nat, rest: seq<byte>)
    requires |frame| >= 2 && |frame| == 2 + Be16(frame[0], frame[1])
    requires j <= |ps| && Deframe(frame + q) == (ps[j..], rest)
    ensures j < |ps| && ps[j] == frame[2..] && Deframe(q) == (ps[j + 1..], rest)
  {
    var s := frame + q;
    var n := Be16(frame[0], frame[1]);
    assert s[0] == frame[0] && s[1] == frame[1];
    assert s[2 + n..] == q;
    assert s[2..2 + n] == frame[2..];
    DeframeFirst(s);
    var todo := ps[j..];
    assert todo == [frame[2..]] + Deframe(q).0;
    assert todo[1..] == ps[j + 1..];
  }

  /**
   * When the bytes now buffered are no complete frame and nothing is left
   * queued, everything decoded so far is incomplete: no payloads, and the
   * buffered bytes are the rest.
   */
  lemma StepIdle(b: seq<byte>, b0: seq<byte>, q: seq<byte>, todo: seq<seq<byte>>, rest: seq<byte>)
    requires Incomplete(b) && b == b0 + q && Deframe(b0 + q) == (todo, rest)
    ensures todo == [] && rest == b
  {
    DeframeIncomplete(b);
  }

  /** What one receive pass makes of the buffered and the queued bytes. */
  datatype ReceiveResult<M> = ReceiveResult(
    events: seq<Event<M>>,
    keepsOpen: bool,
    payloads: seq<seq<byte>>,
    rest: seq<byte>)

  /**
   * Reference behaviour of the receive loop: the complete frames of the
   * buffered bytes followed by the queued ones are handed on in arrival
   * order up to the first that is empty or does not parse, which closes the
   * connection. Otherwise the connection stays open with the incomplete rest
   * buffered, unless the peer has gone and the last `recv` of the pass found
   * the queue empty: with nothing queued, or when the rest is empty or
   * exactly a length prefix (the loop then asks for more bytes).
   */
  function ExpectedReceive<M>(buffered: seq<byte>, queued: seq<byte>, peer: PeerState,
                              parse: seq<byte> -> Option<M>, cbs: Callbacks): ReceiveResult<M>
  {
    var (ps, rest) := Deframe(buffered + queued);
    var k := FirstUndeliverable(ps, parse);
    var open := KeepsOpen(ps, rest, queued, peer, parse);
    ReceiveResult(
      Notifications(ps, k, parse, cbs.onMsgReceived)
        + (if open then [] else Notice(cbs.onConnectionLost, ConnectionLost)),
      open, ps, rest)
  }

  /**
   * Whether a receive pass that decodes `ps` and `rest` leaves the
   * connection open: every payload is delivered, and either the peer is
   * still there or the final `recv` of the pass returned bytes.
   */
  predicate KeepsOpen<M>(ps: seq<seq<byte>>, rest: seq<byte>, queued: seq<byte>, peer: PeerState,
                         parse: seq<byte> -> Option<M>)
  {
    FirstUndeliverable(ps, parse) == |ps|
    && (peer == PeerOpen || (queued != [] && |rest| != 0 && |rest| != 2))
  }

  /** `ExpectedReceive` in terms of the pieces the receive loop establishes. */
  lemma ExpectedReceiveOf<M>(buffered: seq<byte>, queued: seq<byte>, peer: PeerState,
                             parse: seq<byte> -> Option<M>, cbs: Callbacks,
                             ps: seq<seq<byte>>, rest: seq<byte>, count: nat, lost: bool,
                             events: seq<Event<M>>)
    requires Deframe(buffered + queued) == (ps, rest) && count == FirstUndeliverable(ps, parse)
    requires lost <==> !KeepsOpen(ps, rest, queued, peer, parse)
    requires events == Notifications(ps, count, parse, cbs.onMsgReceived)
                       + (if lost then Notice(cbs.onConnectionLost, ConnectionLost) else [])
    ensures ExpectedReceive(buffered, queued, peer, parse, cbs) == ReceiveResult(events, !lost, ps, rest)
  {
  }

  /** Notifications only look at the payloads they count. */
  lemma {:induction false} NotificationsSamePrefix<M>(ps: seq<seq<byte>>, qs: seq<seq<byte>>, n: nat,
                                                      parse: seq<byte> -> Option<M>, registered: bool)
    requires n <= |ps| && n <= |qs| && ps[..n] == qs[..n]
    ensures Notifications(ps, n, parse, registered) == Notifications(qs, n, parse, registered)
  {
    if n > 0 {
      assert ps[..n - 1] == ps[..n][..n - 1] == qs[..n][..n - 1] == qs[..n - 1];
      assert ps[n - 1] == ps[..n][n - 1] == qs[n - 1];
      NotificationsSamePrefix(ps, qs, n - 1, parse, registered);
    }
  }

  /** The notifications for payloads decoded in two parts are those of the parts, in order. */
  lemma {:induction false} NotificationsAppend<M>(ps1: seq<seq<byte>>, ps2: seq<seq<byte>>, k: nat,
                                                  parse: seq<byte> -> Option<M>, registered: bool)
    requires k <= |ps2|
    ensures Notifications(ps1 + ps2, |ps1| + k, parse, registered)
         == Notifications(ps1, |ps1|, parse, registered) + Notifications(ps2, k, parse, registered)
  {
    if k == 0 {
      assert (ps1 + ps2)[..|ps1|] == ps1[..|ps1|];
      NotificationsSamePrefix(ps1 + ps2, ps1, |ps1|, parse, registered);
    } else {
      NotificationsAppend(ps1, ps2, k - 1, parse, registered);
      assert (ps1 + ps2)[|ps1| + k - 1] == ps2[k - 1];
    }
  }

  /** Past a prefix of deliverable payloads, the scan continues in the rest. */
  lemma {:induction false} FirstUndeliverableAppend<M>(ps1: seq<seq<byte>>, ps2: seq<seq<byte>>,
                                                       parse: seq<byte> -> Option<M>)
    requires FirstUndeliverable(ps1, parse) == |ps1|
    ensures FirstUndeliverable(ps1 + ps2, parse) == |ps1| + FirstUndeliverable(ps2, parse)
  {
    if ps1 == [] {
      assert ps1 + ps2 == ps2;
    } else {
      assert (ps1 + ps2)[0] == ps1[0];
      assert (ps1 + ps2)[1..] == ps1[1..] + ps2;
      FirstUndeliverableAppend(ps1[1..], ps2, parse);
    }
  }

  /**
   * Splitting the bytes that arrive between two polls changes nothing: when
   * the first poll keeps the connection open, the two polls together hand
   * on the same payloads with the same events, end with the same bytes
   * buffered and lose the connection exactly when a single poll over all
   * the bytes would (provided the second poll has bytes, or the peer is
   * still there, so that its last `recv` behaves as the single poll's).
   */
  lemma ReceiveSplitAcrossPolls<M>(buffered: seq<byte>, a: seq<byte>, b: seq<byte>, peer: PeerState,
                                   parse: seq<byte> -> Option<M>, cbs: Callbacks)
    requires b != [] || peer == PeerOpen
    ensures var first := ExpectedReceive(buffered, a, PeerOpen, parse, cbs);
            var second := ExpectedReceive(first.rest, b, peer, parse, cbs);
            var whole := ExpectedReceive(buffered, a + b, peer, parse, cbs);
            first.keepsOpen ==>
              first.payloads + second.payloads == whole.payloads
              && second.rest == whole.rest
              && second.keepsOpen == whole.keepsOpen
              && first.events + second.events == whole.events
  {
    var ps1, r1 := Deframe(buffered + a).0, Deframe(buffered + a).1;
    var ps2, r2 := Deframe(r1 + b).0, Deframe(r1 + b).1;
    assert Deframe(buffered + (a + b)) == (ps1 + ps2, r2) by {
      DeframeAppend(buffered + a, b);
      assert (buffered + a) + b == buffered + (a + b);
    }
    if KeepsOpen(ps1, r1, a, PeerOpen, parse) {
      SplitReceiveParts(ps1, ps2, r2, a, b, peer, parse);
      var k2 := FirstUndeliverable(ps2, parse);
      var n1 := Notifications(ps1, |ps1|, parse, cbs.onMsgReceived);
      var n2 := Notifications(ps2, k2, parse, cbs.onMsgReceived);
      NotificationsAppend(ps1, ps2, k2, parse, cbs.onMsgReceived);
      var lost2 := !KeepsOpen(ps2, r2, b, peer, parse);
      var tail := if lost2 then Notice(cbs.onConnectionLost, ConnectionLost) else [];
      ExpectedReceiveOf(buffered, a, PeerOpen, parse, cbs, ps1, r1, |ps1|, false, n1 + []);
      ExpectedReceiveOf(r1, b, peer, parse, cbs, ps2, r2, k2, lost2, n2 + tail);
      ExpectedReceiveOf(buffered, a + b, peer, parse, cbs, ps1 + ps2, r2, |ps1| + k2, lost2, (n1 + n2) + tail);
      assert n1 + [] == n1;
      AppendAssociates(n1, n2, tail);
    }
  }

  /**
   * Regrouping the notifications of two polls and the loss notice. A
   * separate lemma, so that the proof above sees this one instance of
   * associativity and not the whole sequence theory at its size.
   */
  lemma AppendAssociates<T>(x: seq<T>, y: seq<T>, z: seq<T>)
    ensures x + (y + z) == (x + y) + z
  {
  }

  /** `ReceiveSplitAcrossPolls` on the decoded payloads. */
  lemma SplitReceiveParts<M>(ps1: seq<seq<byte>>, ps2: seq<seq<byte>>, rest: seq<byte>,
                             a: seq<byte>, b: seq<byte>, peer: PeerState,
                             parse: seq<byte> -> Option<M>)
    requires FirstUndeliverable(ps1, parse) == |ps1|
    requires b != [] || peer == PeerOpen
    ensures FirstUndeliverable(ps1 + ps2, parse) == |ps1| + FirstUndeliverable(ps2, parse)
    ensures KeepsOpen(ps1 + ps2, rest, a + b, peer, parse) == KeepsOpen(ps2, rest, b, peer, parse)
  {
    FirstUndeliverableAppend(ps1, ps2, parse);
  }

  /**
   * A frame whose bytes arrive in two polls is handed on exactly once, by
   * the poll that brings its last byte; the first poll only buffers, and
   * afterwards nothing is left buffered.
   */
  lemma SplitFrameDeliveredOnce<M>(payload: seq<byte>, a: seq<byte>, b: seq<byte>,
                                   parse: seq<byte> -> Option<M>, cbs: Callbacks)
    requires 0 < |payload| <= MAX_FRAME_LEN && Frame(payload) == a + b && b != []
    ensures var first := ExpectedReceive([], a, PeerOpen, parse, cbs);
            first.keepsOpen && first.events == [] && first.payloads == [] && first.rest == a
    ensures var second := ExpectedReceive(a, b, PeerOpen, parse, cbs);
            second.payloads == [payload] && second.rest == []
            && (parse(payload).Some? ==>
                  second.keepsOpen
                  && second.events == Notice(cbs.onMsgReceived, MsgReceived(parse(payload).value)))
            && (parse(payload).None? ==>
                  !second.keepsOpen && second.events == Notice(cbs.onConnectionLost, ConnectionLost))
  {
    assert Uint16(|payload|) == |payload|;
    var f := Frame(payload);
    assert |a| >= 2 ==> a[0] == f[0] && a[1] == f[1];
    assert [] + a == a;
    DeframeIncomplete(a);
    FrameRoundTrip(payload, []);
    assert f + [] == a + b;
    DeframeIncomplete([]);
    assert [payload][1..] == [];
    assert Notifications([payload], 0, parse, cbs.onMsgReceived) == [];
  }

  /**
   * Complete frames that arrive together are handed on in arrival order in
   * one poll, and nothing is left buffered.
   */
  lemma FramesDeliveredInOrder<M>(payloads: seq<seq<byte>>, peer: PeerState,
                                  parse: seq<byte> -> Option<M>, cbs: Callbacks)
    requires AllFit(payloads)
    ensures var x := ExpectedReceive([], Frames(payloads), peer, parse, cbs);
            x.payloads == payloads && x.rest == []
            && x.events[..|Notifications(payloads, FirstUndeliverable(payloads, parse), parse, cbs.onMsgReceived)|]
               == Notifications(payloads, FirstUndeliverable(payloads, parse), parse, cbs.onMsgReceived)
  {
    var s := Frames(payloads);
    FramesRoundTrip(payloads);
    assert [] + s == s;
    var k := FirstUndeliverable(payloads, parse);
    var n := Notifications(payloads, k, parse, cbs.onMsgReceived);
    var lost := !KeepsOpen(payloads, [], s, peer, parse);
    var tail := if lost then Notice(cbs.onConnectionLost, ConnectionLost) else [];
    ExpectedReceiveOf([], s, peer, parse, cbs, payloads, [], k, lost, n + tail);
    assert (n + tail)[..|n|] == n;
  }

  /** How the reads of one pass of the receive loop ended. */
  datatype Assembly = FrameReady | NeedMore | Dropped

  /** How asking for the rest of a payload ended. */
  datatype PayloadRead = Complete | Awaiting | Broken

  /** How one pass of the receive loop ended. */
  datatype StepOutcome<M> = Delivered(msg: M) | Idle | Failed

  /** How a call to `sendNetworkMessage` ended. */
  datatype SendOutcome = Sent | Threw(reason: string) | Lost

  class Connection {
    var currentState: State
    var cbs: Callbacks
    var sockfd: int
    var timer: real
    var openTimeout: real
    const recvBuffer: array<byte>
    var recvBufferPos: nat
    var recvMsgSize: nat
    /** Every byte read from the socket, and the payloads of its complete frames. */
    ghost var received: seq<byte>
    ghost var delivered: seq<seq<byte>>

    ghost predicate Valid()
      reads this, recvBuffer
    {
      currentState != Suspended
      && BufferShape()
      && (sockfd >= 0 ==> Deframe(received) == (delivered, recvBuffer[..recvBufferPos]))
    }

    /**
     * The buffer holds a frame of at most the largest announced size, and
     * once its prefix is in, `recvMsgSize` is the length it announces.
     */
    ghost predicate BufferShape()
      reads this, recvBuffer
    {
      recvBuffer.Length == RECV_BUFFER_SIZE
      && recvBufferPos <= RECV_BUFFER_SIZE
      && (recvBufferPos >= 2 ==> recvMsgSize == Be16(recvBuffer[0], recvBuffer[1]))
    }

    function Phase(): Phase
      reads this
    {
      if sockfd < 0 then Closed
      else if currentState == Disconnected then Connecting
      else Open
    }

    /** The bytes of the frame currently being assembled. */
    function Buffered(): seq<byte>
      reads this, recvBuffer
      requires recvBufferPos <= recvBuffer.Length
    {
      recvBuffer[..recvBufferPos]
    }

    /** Post-state of the outgoing constructor once every system call succeeded. */
    constructor Outgoing(fd: int, timeout: real, callbacks: Callbacks)
      requires fd >= 0
      ensures Valid() && Phase() == Connecting
      ensures currentState == Disconnected && sockfd == fd
      ensures openTimeout == timeout && cbs == callbacks && timer == 0.0
      ensures recvBufferPos == 0 && received == [] && delivered == []
      ensures fresh(recvBuffer)
    {
      currentState := Disconnected;
      sockfd := fd;
      openTimeout := timeout;
      cbs := callbacks;
      timer := 0.0;
      recvBuffer := new byte[RECV_BUFFER_SIZE];
      recvBufferPos := 0;
      recvMsgSize := 0;
      received := [];
      delivered := [];
    }

    /**
     * `Connection(int)`: a socket the listener accepted starts ACTIVE with
     * no callbacks and an empty receive buffer. The source leaves `timer`
     * and `openTimeout` unset; the model zeroes them.
     */
    constructor Accepted(fd: int)
      requires fd >= 0
      ensures Valid() && Phase() == Open
      ensures currentState == Active && sockfd == fd && cbs == NO_CALLBACKS
      ensures recvBufferPos == 0 && received == [] && delivered == []
      ensures fresh(recvBuffer)
    {
      currentState := Active;
      sockfd := fd;
      cbs := NO_CALLBACKS;
      timer := 0.0;
      openTimeout := 0.0;
      recvBuffer := new byte[RECV_BUFFER_SIZE];
      recvBufferPos := 0;
      recvMsgSize := 0;
      received := [];
      delivered := [];
    }

    /**
     * `Connection(ip, port, timeout, callbacks)`: throws at the first system
     * call that fails, otherwise starts connecting. An immediate connect
     * success also goes through the connecting phase.
     */
    static method Connect(timeout: real, callbacks: Callbacks, os: SetupReport)
      returns (r: Result<Connection, string>)
      ensures !os.addressParses ==> r == Failure("Unable to parse IP address for socket")
      ensures os.addressParses && os.socketFd < 0 ==> r == Failure("Socket creation failed")
      ensures os.addressParses && os.socketFd >= 0 && !os.nonblockingSet
              ==> r == Failure("Failed to set socket to nonblocking mode")
      ensures os.addressParses && os.socketFd >= 0 && os.nonblockingSet && os.connectCall == ConnectRefused
              ==> r == Failure("Failed to connect to socket endpoint")
      ensures r.Success? <==> os.addressParses && os.socketFd >= 0 && os.nonblockingSet
                              && os.connectCall != ConnectRefused
      ensures r.Success? ==>
                var c := r.value;
                fresh(c) && fresh(c.recvBuffer) && c.Valid() && c.Phase() == Connecting
                && c.sockfd == os.socketFd && c.openTimeout == timeout && c.cbs == callbacks
                && c.timer == 0.0 && c.recvBufferPos == 0 && c.received == []
    {
      if !os.addressParses {
        return Failure("Unable to parse IP address for socket");
      }
      if os.socketFd < 0 {
        return Failure("Socket creation failed");
      }
      if !os.nonblockingSet {
        return Failure("Failed to set socket to nonblocking mode");
      }
      if os.connectCall == ConnectRefused {
        return Failure("Failed to connect to socket endpoint");
      }
      var c := new Connection.Outgoing(os.socketFd, timeout, callbacks);
      return Success(c);
    }

    /**
     * The destructor closes the socket if it is open; the object is not
     * used afterwards, so only the closed socket is recorded.
     */
    method Destroy()
      modifies this`sockfd
      ensures Phase() == Closed && sockfd == if old(sockfd) >= 0 then -1 else old(sockfd)
    {
      if sockfd >= 0 {
        sockfd := -1;
      }
    }

    method SetOnConnectionLostCallback(registered: bool)
      requires Valid()
      modifies this
      ensures Valid()
      ensures cbs == old(cbs).(onConnectionLost := registered)
      ensures Phase() == old(Phase()) && sockfd == old(sockfd) && currentState == old(currentState)
    {
      cbs := cbs.(onConnectionLost := registered);
    }

    method SetOnMsgReceivedCallback(registered: bool)
      requires Valid()
      modifies this
      ensures Valid()
      ensures cbs == old(cbs).(onMsgReceived := registered)
      ensures Phase() == old(Phase()) && sockfd == old(sockfd) && currentState == old(currentState)
    {
      cbs := cbs.(onMsgReceived := registered);
    }

    /**
     * `sendNetworkMessage` with `serialized` the protobuf encoding of the
     * message and `prefixSent`/`payloadSent` what the two `send` calls
     * return (-1 or the number of bytes the kernel took). `written` is what
     * reaches the peer.
     */
    method SendNetworkMessage<M>(serialized: seq<byte>, prefixSent: int, payloadSent: int)
      returns (outcome: SendOutcome, written: seq<byte>, events: seq<Event<M>>)
      requires Valid()
      requires -1 <= prefixSent <= 2 && -1 <= payloadSent <= |serialized|
      modifies this
      ensures Valid()
      ensures old(currentState) == Disconnected
              ==> outcome == Threw("Cannot send data over closed connection") && written == []
      ensures old(currentState) != Disconnected && serialized == []
              ==> outcome == Threw("Error forming name request message") && written == []
      ensures outcome.Threw? ==> unchanged(this) && events == []
      ensures outcome == Sent <==> old(currentState) != Disconnected && serialized != []
                                   && prefixSent == 2 && payloadSent == |serialized|
      ensures outcome == Sent ==> written == Frame(serialized) && unchanged(this) && events == []
      ensures outcome == Lost ==>
                sockfd == -1 && currentState == Disconnected && cbs == old(cbs)
                && events == Notice(cbs.onConnectionLost, ConnectionLost)
                && |written| < |Frame(serialized)| && written == Frame(serialized)[..|written|]
                && (prefixSent != 2 ==> |written| < 2)
    {
      if currentState == Disconnected {
        return Threw("Cannot send data over closed connection"), [], [];
      }
      if serialized == [] {
        return Threw("Error forming name request message"), [], [];
      }
      var prefix := LengthPrefix(Uint16(|serialized|));
      if prefixSent != 2 {
        written := if prefixSent < 0 then [] else prefix[..prefixSent];
        sockfd := -1;
        currentState := Disconnected;
        return Lost, written, Notice(cbs.onConnectionLost, ConnectionLost);
      }
      if payloadSent != |serialized| {
        written := prefix + (if payloadSent < 0 then [] else serialized[..payloadSent]);
        assert written == Frame(serialized)[..|written|];
        sockfd := -1;
        currentState := Disconnected;
        return Lost, written, Notice(cbs.onConnectionLost, ConnectionLost);
      }
      return Sent, prefix + serialized, [];
    }

    /** The connect part of `poll`, for a connection in the connecting phase. */
    method PollConnect<M>(secs: real, probe: ConnectProbe) returns (r: Result<seq<Event<M>>, string>)
      requires Valid() && Phase() == Connecting
      modifies this
      ensures Valid() && ConnectPolled(old(timer), secs, probe, r)
      ensures cbs == old(cbs) && openTimeout == old(openTimeout)
      ensures received == old(received) && delivered == old(delivered)
      ensures recvBufferPos == old(recvBufferPos) && recvMsgSize == old(recvMsgSize)
    {
      match probe
      case SelectFailed =>
        sockfd := -1;
        r := Failure("Error polling for connection status");
      case SocketError =>
        sockfd := -1;
        r := Success(Notice(cbs.onConnectFail, ConnectFail));
      case Writable =>
        currentState := Active;
        r := Success(Notice(cbs.onConnectSuccess, ConnectSuccess));
      case Pending =>
        timer := timer + secs;
        if timer > openTimeout {
          sockfd := -1;
          r := Success(Notice(cbs.onConnectFail, ConnectFail));
        } else {
          r := Success([]);
        }
    }

    /**
     * How a connect-phase poll ends: a `select` failure throws, a socket
     * error fails the connect, a writable socket becomes ACTIVE, and
     * otherwise the timer advances by `secs` and the connect fails once the
     * timer is strictly past the timeout.
     */
    ghost predicate ConnectPolled<M>(timerBefore: real, secs: real, probe: ConnectProbe,
                                     r: Result<seq<Event<M>>, string>)
      reads this
    {
      currentState != Suspended
      && timer == (if probe == Pending then timerBefore + secs else timerBefore)
      && match probe
         case SelectFailed =>
           r == Failure("Error polling for connection status") && Phase() == Closed
         case SocketError =>
           r == Success(Notice(cbs.onConnectFail, ConnectFail)) && Phase() == Closed
         case Writable =>
           r == Success(Notice(cbs.onConnectSuccess, ConnectSuccess)) && Phase() == Open
         case Pending =>
           if timer > openTimeout then
             r == Success(Notice(cbs.onConnectFail, ConnectFail)) && Phase() == Closed
           else
             r == Success([]) && Phase() == Connecting
    }

    /**
     * The outcome `ExpectedReceive` prescribes, given the buffered bytes and
     * the ghost history before the pass.
     */
    ghost predicate ReceivedAsExpected<M>(buffered: seq<byte>, receivedBefore: seq<byte>,
                                          deliveredBefore: seq<seq<byte>>, queued: seq<byte>,
                                          peer: PeerState, parse: seq<byte> -> Option<M>,
                                          events: seq<Event<M>>)
      reads this, recvBuffer
    {
      var x := ExpectedReceive(buffered, queued, peer, parse, cbs);
      events == x.events
      && (Phase() == Open <==> x.keepsOpen)
      && (x.keepsOpen ==>
            recvBufferPos <= recvBuffer.Length && Buffered() == x.rest
            && received == receivedBefore + queued && delivered == deliveredBefore + x.payloads)
      && (!x.keepsOpen ==> sockfd == -1 && currentState == Disconnected)
    }

    /**
     * `recv` into the receive buffer at the current position, followed by
     * the position update the caller makes when bytes arrived.
     */
    method RecvInto(queued: seq<byte>, peer: PeerState, n: nat) returns (reply: RecvReply, left: seq<byte>)
      requires recvBufferPos + n <= recvBuffer.Length
      modifies this`recvBufferPos, recvBuffer
      ensures reply == KernelRecv(queued, peer, n)
      ensures recvBufferPos == old(recvBufferPos) + (if reply.Data? then |reply.bytes| else 0)
      ensures Buffered() == old(Buffered()) + (if reply.Data? then reply.bytes else [])
      ensures left == if reply.Data? then queued[|reply.bytes|..] else queued
      ensures Buffered() + left == old(Buffered()) + queued
      ensures old(recvBufferPos) >= 2 ==> recvBuffer[0] == old(recvBuffer[0]) && recvBuffer[1] == old(recvBuffer[1])
    {
      reply := KernelRecv(queued, peer, n);
      left := queued;
      if reply.Data? {
        var bytes := reply.bytes;
        var pos := recvBufferPos;
        forall i | 0 <= i < |bytes| {
          recvBuffer[pos + i] := bytes[i];
        }
        assert recvBuffer[..pos + |bytes|] == old(recvBuffer[..pos]) + bytes;
        left := queued[|bytes|..];
        recvBufferPos := pos + |bytes|;
        assert queued == bytes + left;
      }
    }

    /** Fields the receive loop relies on between its iterations. */
    ghost predicate Assembling()
      reads this, recvBuffer
    {
      BufferShape() && Incomplete(Buffered())
    }

    /** Closes the socket after a receive error. */
    method Drop()
      modifies this`sockfd, this`currentState
      ensures sockfd == -1 && currentState == Disconnected
    {
      sockfd := -1;
      currentState := Disconnected;
    }

    /**
     * The first half of a pass of `while (recv_again)`: with fewer than two
     * bytes buffered, ask for the rest of the length prefix. A zero-byte
     * read or a hard error closes the socket; once both prefix bytes are in,
     * `recvMsgSize` is what they announce.
     */
    method ReadPrefix(q: seq<byte>, peer: PeerState) returns (ok: bool, left: seq<byte>)
      requires BufferShape() && recvBufferPos < 2
      modifies this`recvBufferPos, this`recvMsgSize, this`sockfd, this`currentState, recvBuffer
      ensures BufferShape() && Buffered() + left == old(Buffered()) + q
      ensures ok ==> sockfd == old(sockfd) && currentState == old(currentState)
      ensures ok && recvBufferPos < 2 ==>
                left == [] && (peer == PeerOpen || (q != [] && recvBufferPos == 1))
      ensures ok && recvBufferPos >= 2 ==> recvBufferPos == 2 && q != []
      ensures !ok ==> q == [] && peer != PeerOpen && Buffered() == old(Buffered())
                      && sockfd == -1 && currentState == Disconnected
    {
      var reply;
      reply, left := RecvInto(q, peer, 2 - recvBufferPos);
      if reply == Shutdown || reply == RecvError {
        Drop();
        return false, left;
      }
      if reply.Data? && recvBufferPos == 2 {
        recvMsgSize := Be16(recvBuffer[0], recvBuffer[1]);
      }
      return true, left;
    }

    /**
     * The second half of a pass: with the prefix in, ask for the rest of the
     * payload. A zero-byte read (which is what asking for zero bytes of an
     * empty payload returns) or a hard error closes the socket.
     */
    method ReadPayload(q: seq<byte>, peer: PeerState) returns (r: PayloadRead, left: seq<byte>)
      requires BufferShape() && 2 <= recvBufferPos <= 2 + recvMsgSize
      modifies this`recvBufferPos, this`sockfd, this`currentState, recvBuffer
      ensures BufferShape() && recvBufferPos <= 2 + recvMsgSize
      ensures Buffered() + left == old(Buffered()) + q
      ensures r != Broken ==> sockfd == old(sockfd) && currentState == old(currentState)
      ensures r == Complete <==> recvBufferPos == 2 + recvMsgSize && r != Broken
      ensures r == Complete ==> old(recvBufferPos) < recvBufferPos
      ensures r == Awaiting ==>
                left == [] && (peer == PeerOpen || (q != [] && recvBufferPos > old(recvBufferPos)))
      ensures r == Broken ==>
                (old(recvBufferPos) == 2 + recvMsgSize || (q == [] && peer != PeerOpen))
                && Buffered() == old(Buffered()) && sockfd == -1 && currentState == Disconnected
    {
      var reply;
      reply, left := RecvInto(q, peer, recvMsgSize + 2 - recvBufferPos);
      if reply == Shutdown || reply == RecvError {
        Drop();
        return Broken, left;
      }
      if reply.Data? && recvBufferPos == 2 + recvMsgSize {
        return Complete, left;
      }
      return Awaiting, left;
    }

    /**
     * The reads of one pass of the body of `while (recv_again)`: the rest of
     * the length prefix, then the rest of the payload. A zero-byte read or a
     * hard error closes the socket. `todo` and `rest` are what the buffered
     * bytes followed by the queued ones decode to.
     */
    method AssembleFrame(q: seq<byte>, peer: PeerState, ghost todo: seq<seq<byte>>, ghost rest: seq<byte>)
      returns (r: Assembly, left: seq<byte>)
      requires Assembling() && Deframe(Buffered() + q) == (todo, rest)
      modifies this`recvBufferPos, this`recvMsgSize, this`sockfd, this`currentState, recvBuffer
      ensures r == FrameReady ==>
                BufferShape() && 2 < recvBufferPos == 2 + recvMsgSize
                && todo != [] && todo[0] == Buffered()[2..]
                && Deframe(left) == (todo[1..], rest) && |left| < |q|
                && sockfd == old(sockfd) && currentState == old(currentState)
      ensures r == NeedMore ==>
                Assembling() && todo == [] && left == [] && Buffered() == rest
                && (peer == PeerOpen || (q != [] && |rest| != 0 && |rest| != 2))
                && sockfd == old(sockfd) && currentState == old(currentState)
      ensures r == Dropped ==>
                BufferShape() && sockfd == -1 && currentState == Disconnected
                && ((todo != [] && todo[0] == [])
                    || (todo == [] && peer != PeerOpen && (q == [] || |rest| == 2)
                        && (q == [] && old(recvBufferPos) == 0 ==> rest == [])))
    {
      ghost var b0 := Buffered();
      left := q;
      if recvBufferPos < 2 {
        var ok;
        ok, left := ReadPrefix(q, peer);
        if !ok {
          DeframeIncomplete(b0);
          return Dropped, left;
        }
        if recvBufferPos < 2 {
          StepIdle(Buffered(), b0, q, todo, rest);
          return NeedMore, left;
        }
      }
      var p;
      p, left := ReadPayload(left, peer);
      match p
      case Broken =>
        if recvBufferPos == 2 + recvMsgSize {
          assert todo[0..] == todo;
          CompleteFrame(Buffered(), left, todo, 0, rest);
        } else {
          StepIdle(Buffered(), b0, q, todo, rest);
        }
        return Dropped, left;
      case Awaiting =>
        StepIdle(Buffered(), b0, q, todo, rest);
        return NeedMore, left;
      case Complete =>
        assert todo[0..] == todo;
        CompleteFrame(Buffered(), left, todo, 0, rest);
        return FrameReady, left;
    }

    /**
     * One pass of the body of `while (recv_again)`: assemble a frame, then
     * parse its payload and hand it on, or close the socket when it does not
     * parse.
     */
    method ReceiveStep<M>(q: seq<byte>, peer: PeerState, parse: seq<byte> -> Option<M>,
                          ghost todo: seq<seq<byte>>, ghost rest: seq<byte>)
      returns (outcome: StepOutcome<M>, left: seq<byte>)
      requires Assembling() && Deframe(Buffered() + q) == (todo, rest)
      modifies this`recvBufferPos, this`recvMsgSize, this`sockfd, this`currentState, recvBuffer
      ensures outcome.Delivered? ==>
                Assembling() && todo != [] && Deliverable(todo[0], parse)
                && outcome.msg == parse(todo[0]).value && recvBufferPos == 0
                && Deframe(Buffered() + left) == (todo[1..], rest) && |left| < |q|
                && sockfd == old(sockfd) && currentState == old(currentState)
      ensures outcome == Idle ==>
                Assembling() && todo == [] && left == [] && Buffered() == rest
                && (peer == PeerOpen || (q != [] && |rest| != 0 && |rest| != 2))
                && sockfd == old(sockfd) && currentState == old(currentState)
      ensures outcome == Failed ==>
                BufferShape() && sockfd == -1 && currentState == Disconnected
                && ((todo != [] && !Deliverable(todo[0], parse))
                    || (todo == [] && peer != PeerOpen && (q == [] || |rest| == 2)
                        && (q == [] && old(recvBufferPos) == 0 ==> rest == [])))
    {
      var r;
      r, left := AssembleFrame(q, peer, todo, rest);
      match r
      case NeedMore =>
        return Idle, left;
      case Dropped =>
        return Failed, left;
      case FrameReady =>
        var msg := parse(recvBuffer[2..recvBufferPos]);
        if msg.None? {
          Drop();
          return Failed, left;
        }
        recvBufferPos := 0;
        assert Buffered() + left == left;
        return Delivered(msg.value), left;
    }

    /**
     * The `while (recv_again)` loop of `poll`: hands on the payloads of
     * `ps` in order up to the first that cannot be delivered, and reports
     * whether the connection was lost on the way.
     */
    method ReceiveLoop<M>(queued: seq<byte>, peer: PeerState, parse: seq<byte> -> Option<M>,
                          ghost ps: seq<seq<byte>>, ghost rest: seq<byte>)
      returns (events: seq<Event<M>>, lost: bool, ghost count: nat)
      requires Assembling() && Deframe(Buffered() + queued) == (ps, rest)
      modifies this`recvBufferPos, this`recvMsgSize, this`sockfd, this`currentState, recvBuffer
      ensures lost <==> !KeepsOpen(ps, rest, queued, peer, parse)
      ensures count == FirstUndeliverable(ps, parse)
      ensures events == Notifications(ps, count, parse, cbs.onMsgReceived)
                        + (if lost then Notice(cbs.onConnectionLost, ConnectionLost) else [])
      ensures lost ==> BufferShape() && sockfd == -1 && currentState == Disconnected
      ensures !lost ==> Assembling() && Buffered() == rest
                        && sockfd == old(sockfd) && currentState == old(currentState)
    {
      count := 0;
      var q := queued;
      events := [];
      var recvAgain := true;
      while recvAgain
        invariant Assembling()
        invariant sockfd == old(sockfd) && currentState == old(currentState)
        invariant count <= FirstUndeliverable(ps, parse)
        invariant Deframe(Buffered() + q) == (ps[count..], rest)
        invariant events == Notifications(ps, count, parse, cbs.onMsgReceived)
        invariant recvAgain ==> q == queued || recvBufferPos == 0
        invariant !recvAgain ==> q == [] && count == |ps| && Buffered() == rest
                                 && (peer == PeerOpen || (queued != [] && |rest| != 0 && |rest| != 2))
        decreases |q| + (if recvAgain then 1 else 0)
      {
        var outcome;
        outcome, q := ReceiveStep(q, peer, parse, ps[count..], rest);
        match outcome
        case Delivered(msg) =>
          events := events + Notice(cbs.onMsgReceived, MsgReceived(msg));
          assert ps[count..][1..] == ps[count + 1..];
          FirstUndeliverableAt(ps, parse, count);
          count := count + 1;
        case Idle =>
          DeframeIncomplete(Buffered());
          assert Buffered() + q == Buffered();
          recvAgain := false;
        case Failed =>
          if count < |ps| {
            assert ps[count..][0] == ps[count];
          }
          FirstUndeliverableAt(ps, parse, count);
          events := events + Notice(cbs.onConnectionLost, ConnectionLost);
          return events, true, count;
      }
      return events, false, count;
    }

    /** The receive part of `poll`, for an open connection. */
    method Receive<M>(queued: seq<byte>, peer: PeerState, parse: seq<byte> -> Option<M>)
      returns (events: seq<Event<M>>)
      requires Valid() && Phase() == Open
      modifies this, recvBuffer
      ensures Valid()
      ensures ReceivedAsExpected(old(Buffered()), old(received), old(delivered), queued, peer, parse, events)
      ensures cbs == old(cbs) && timer == old(timer) && openTimeout == old(openTimeout)
    {
      DeframeRest(received);
      ghost var ps, rest := Deframe(Buffered() + queued).0, Deframe(Buffered() + queued).1;
      var lost;
      ghost var count;
      events, lost, count := ReceiveLoop(queued, peer, parse, ps, rest);
      ExpectedReceiveOf(old(Buffered()), queued, peer, parse, cbs, ps, rest, count, lost, events);
      if !lost {
        DeframeAppend(received, queued);
        received := received + queued;
        delivered := delivered + ps;
      }
    }

    /**
     * `poll(secs)`: advances a connect in progress, or receives on an open
     * connection; a closed connection is left as it is.
     */
    method Poll<M>(secs: real, probe: ConnectProbe, queued: seq<byte>, peer: PeerState,
                   parse: seq<byte> -> Option<M>)
      returns (r: Result<seq<Event<M>>, string>)
      requires Valid()
      modifies this, recvBuffer
      ensures Valid() && cbs == old(cbs) && openTimeout == old(openTimeout)
      ensures old(Phase()) == Closed ==> r == Success([]) && unchanged(this) && unchanged(recvBuffer)
      ensures old(Phase()) == Connecting ==> ConnectPolled(old(timer), secs, probe, r)
      ensures old(Phase()) == Open ==>
                r.Success? && timer == old(timer)
                && ReceivedAsExpected(old(Buffered()), old(received), old(delivered), queued, peer, parse, r.value)
    {
      if currentState == Disconnected && sockfd >= 0 {
        r := PollConnect(secs, probe);
      } else if sockfd >= 0 {
        var events := Receive(queued, peer, parse);
        r := Success(events);
      } else {
        r := Success([]);
      }
    }
  }
}

=== FILE: main_menu.dfy ===
/**
 * The state machine of the client's main menu (client/src/MainMenu.cpp):
 * the submenu shown and the fades between submenus, and the online name
 * submission, whose result the session reports through a callback and the
 * menu holds back until the loading spinner has turned for a minimum time.
 *
 * The fields the handlers update are gathered in the value `Menu`; each
 * handler is specified by a function from the fields before to the fields
 * after. Opacities, layout and the background pan are not modelled. The
 * menu's widgets and its session are instances of the modelled classes;
 * the zoom selectors are reduced to which one was clicked and to the
 * enabled flag of the submit selector.
 */
module MainMenus {
  import opened Wrappers
  import Wire
  import Connections
  import ServerSessions
  import MenuTextBoxes
  import SelectableButtons
  import BoxSelectors
  import Windows

  const INIT_FADE_END_TIME: real := 1.2
  const TRANS_FADE_IN_END_TIME: real := 0.4
  const OL_NAME_TB_MAX_CHARS: nat := 15
  const OL_NAME_SUBMIT_MIN_LOAD_TIME: real := 1.0
  /** raylib's key code for enter. */
  const KEY_ENTER: int := 257

  datatype State =
    | InitialFade
    | FadeTransition
    | ShowToplevel
    | ShowSettings
    | ShowOnlineNameInput
    | ShowHostJoin

  datatype ReturnCode = KeepRunning | ExitProgram

  /** The zoom selectors whose clicks the menu handles. */
  datatype ZoomSource =
    | ToplevelZoomSel
    | SettingsApplyZoomSel
    | SettingsBackZoomSel
    | OlNameSubmitZoomSel
    | OlNameBackZoomSel

  /** The fields of the menu its handlers update, with the name text box's enabled flag. */
  datatype Menu = Menu(
    state: State,
    fadeFrom: State,
    fadeTo: State,
    fadeStopwatch: real,
    loading: bool,
    textBoxEnabled: bool,
    submitEnabled: bool,
    showTakenErr: bool,
    showConnectErr: bool,
    submitResult: ServerSessions.Event,
    nameSubmitStopwatch: real,
    returnCode: ReturnCode)

  /** The session events that end a name submission. */
  predicate IsResult(e: ServerSessions.Event)
  {
    e == ServerSessions.ConnectionFailed || e == ServerSessions.NameAccepted || e == ServerSessions.NameRejected
  }

  /** No event of `es` ends a name submission. */
  predicate NoResults(es: seq<ServerSessions.Event>)
  {
    forall i :: 0 <= i < |es| ==> !IsResult(es[i])
  }

  /** `onSessionEvent`: the result held after event `e`; events that are not results are ignored. */
  function Latch(result: ServerSessions.Event, e: ServerSessions.Event): ServerSessions.Event
  {
    if IsResult(e) then e else result
  }

  /** The result held after the session reported `es`, in order. */
  function LatchAll(result: ServerSessions.Event, es: seq<ServerSessions.Event>): ServerSessions.Event
    decreases |es|
  {
    if es == [] then result else Latch(LatchAll(result, es[..|es| - 1]), es[|es| - 1])
  }

  /** Events that are not results leave the result held as it was. */
  lemma {:induction false} LatchAllIgnoresOthers(result: ServerSessions.Event, es: seq<ServerSessions.Event>)
    ensures NoResults(es) ==> LatchAll(result, es) == result
    decreases |es|
  {
    if es != [] && NoResults(es) {
      var init := es[..|es| - 1];
      assert NoResults(init) by {
        forall j | 0 <= j < |init|
          ensures !IsResult(init[j])
        {
          assert init[j] == es[j];
        }
      }
      LatchAllIgnoresOthers(result, init);
    }
  }

  /** The result held is the last result event reported. */
  lemma {:induction false} LatchAllLastResult(result: ServerSessions.Event, es: seq<ServerSessions.Event>)
    ensures forall i :: 0 <= i < |es| && IsResult(es[i]) && NoResults(es[i + 1..]) ==> LatchAll(result, es) == es[i]
    decreases |es|
  {
    if es != [] {
      var n := |es| - 1;
      var init := es[..n];
      LatchAllLastResult(result, init);
      forall i | 0 <= i < |es| && IsResult(es[i]) && NoResults(es[i + 1..])
        ensures LatchAll(result, es) == es[i]
      {
        if i < n {
          assert es[i + 1..][n - i - 1] == es[n];
          assert init[i] == es[i];
          assert NoResults(init[i + 1..]) by {
            assert init[i + 1..] == es[i + 1..n];
          }
        }
      }
    }
  }

  /**
   * `initiateFadeToState`: the fade starts from the current state towards
   * `next`, with the stopwatch at zero; heading for the name input clears
   * both error labels.
   */
  function FadeTo(m: Menu, next: State): Menu
  {
    var cleared := if next == ShowOnlineNameInput then m.(showTakenErr := false, showConnectErr := false) else m;
    cleared.(fadeStopwatch := 0.0, fadeFrom := m.state, fadeTo := next, state := FadeTransition)
  }

  /** `handleNameSubmissionResult`, for the result held. */
  function HandleResult(m: Menu): Menu
  {
    match m.submitResult
    case ConnectionFailed =>
      m.(loading := false, textBoxEnabled := true, submitEnabled := true, showConnectErr := true)
    case NameRejected =>
      m.(loading := false, textBoxEnabled := true, submitEnabled := true, showTakenErr := true)
    case NameAccepted => FadeTo(m, ShowToplevel)
    case _ => m
  }

  /**
   * The state part of `updateForState`: on the name input, the submission
   * stopwatch runs while loading, and a held result is handled, and then
   * dropped, once the stopwatch has reached the minimum loading time.
   */
  function UpdateFor(m: Menu, menuState: State, secs: real): Menu
  {
    if menuState != ShowOnlineNameInput then m
    else
      var timed := if m.loading then m.(nameSubmitStopwatch := m.nameSubmitStopwatch + secs) else m;
      if timed.submitResult != ServerSessions.NoEvent && timed.nameSubmitStopwatch >= OL_NAME_SUBMIT_MIN_LOAD_TIME
      then HandleResult(timed).(submitResult := ServerSessions.NoEvent)
      else timed
  }

  /**
   * The state part of `update` after the session's poll: the initial fade
   * ends in the top-level menu, and a fade ends in its target, once their
   * stopwatches reach the end times; then the shown submenus are updated.
   */
  function StateUpdate(m: Menu, secs: real): Menu
  {
    match m.state
    case InitialFade =>
      UpdateFor(Advance(m, secs, INIT_FADE_END_TIME, ShowToplevel), ShowToplevel, secs)
    case FadeTransition =>
      var advanced := Advance(m, secs, TRANS_FADE_IN_END_TIME, m.fadeTo);
      var fromUpdated := UpdateFor(advanced, advanced.fadeFrom, secs);
      UpdateFor(fromUpdated, fromUpdated.fadeTo, secs)
    case _ => UpdateFor(m, m.state, secs)
  }

  /** A fade's stopwatch runs on, and the fade ends in `target` once it reaches `endTime`. */
  function Advance(m: Menu, secs: real, endTime: real, target: State): Menu
  {
    var timed := m.(fadeStopwatch := m.fadeStopwatch + secs);
    if timed.fadeStopwatch >= endTime then timed.(state := target) else timed
  }

  /** `update`: the session's events reach `onSessionEvent`, then the state is updated. */
  function MenuUpdate(m: Menu, reported: seq<ServerSessions.Event>, secs: real): Menu
  {
    StateUpdate(m.(submitResult := LatchAll(m.submitResult, reported)), secs)
  }

  /**
   * `triggerNameSubmission`: nothing happens for an empty name; otherwise
   * the spinner starts from zero, the inputs are disabled and the errors
   * cleared.
   */
  function Submit(m: Menu, nameEmpty: bool): Menu
  {
    if nameEmpty then m
    else m.(loading := true, textBoxEnabled := false, submitEnabled := false,
            showConnectErr := false, showTakenErr := false, nameSubmitStopwatch := 0.0)
  }

  /**
   * `onZoomSelectorClicked`: the top-level entries are local game (nothing),
   * online, settings and exit; both back buttons return to the top level,
   * submit submits the name and apply changes no menu field.
   */
  function ZoomClick(m: Menu, source: ZoomSource, index: int, nameEmpty: bool): Menu
  {
    match source
    case ToplevelZoomSel =>
      if index == 1 then
        FadeTo(m.(loading := false, textBoxEnabled := true, submitEnabled := true), ShowOnlineNameInput)
      else if index == 2 then FadeTo(m, ShowSettings)
      else if index == 3 then m.(returnCode := ExitProgram)
      else m
    case SettingsApplyZoomSel => m
    case SettingsBackZoomSel => FadeTo(m, ShowToplevel)
    case OlNameSubmitZoomSel => Submit(m, nameEmpty)
    case OlNameBackZoomSel => FadeTo(m, ShowToplevel)
  }

  /** `onKeyPressed`: on the name input, enter submits the name; every other key goes to the text box. */
  function KeyPress(m: Menu, key: int, nameEmpty: bool): Menu
  {
    if m.state == ShowOnlineNameInput && key == KEY_ENTER then Submit(m, nameEmpty) else m
  }

  /** The initial fade ends in the top-level menu exactly when its stopwatch reaches the end time. */
  lemma InitialFadeEnds(m: Menu, secs: real)
    requires m.state == InitialFade
    ensures var after := StateUpdate(m, secs);
            after.fadeStopwatch == m.fadeStopwatch + secs
            && after.state == (if m.fadeStopwatch + secs >= INIT_FADE_END_TIME then ShowToplevel else InitialFade)
            && after.submitResult == m.submitResult && after.loading == m.loading
  {
  }

  /**
   * A fade started while no result is held reaches its target on the
   * first update whose elapsed time reaches the fade's end time, and stays
   * in the transition before; heading for the name input clears the errors.
   */
  lemma FadeCompletes(m: Menu, next: State, secs: real)
    requires next != FadeTransition && m.submitResult == ServerSessions.NoEvent
    ensures var after := StateUpdate(FadeTo(m, next), secs);
            after.state == (if secs >= TRANS_FADE_IN_END_TIME then next else FadeTransition)
            && after.fadeFrom == m.state && after.fadeTo == next && after.fadeStopwatch == secs
            && (next == ShowOnlineNameInput ==> !after.showTakenErr && !after.showConnectErr)
  {
  }

  /**
   * On the name input, a held result waits while the spinner has turned
   * for less than the minimum time; once it has, the result is handled
   * and dropped: a failed connect or a taken name stops the spinner,
   * enables the inputs and shows its error, an accepted name fades to the
   * top-level menu.
   */
  lemma ResultHeldUntilMinLoad(m: Menu, secs: real)
    requires m.state == ShowOnlineNameInput && m.loading && IsResult(m.submitResult)
    ensures var after := StateUpdate(m, secs);
            var t := m.nameSubmitStopwatch + secs;
            (t < OL_NAME_SUBMIT_MIN_LOAD_TIME ==> after == m.(nameSubmitStopwatch := t))
            && (t >= OL_NAME_SUBMIT_MIN_LOAD_TIME ==>
                  after.submitResult == ServerSessions.NoEvent
                  && (m.submitResult == ServerSessions.ConnectionFailed ==>
                        after.state == ShowOnlineNameInput && !after.loading && after.textBoxEnabled
                        && after.submitEnabled && after.showConnectErr)
                  && (m.submitResult == ServerSessions.NameRejected ==>
                        after.state == ShowOnlineNameInput && !after.loading && after.textBoxEnabled
                        && after.submitEnabled && after.showTakenErr)
                  && (m.submitResult == ServerSessions.NameAccepted ==>
                        after.state == FadeTransition && after.fadeFrom == ShowOnlineNameInput
                        && after.fadeTo == ShowToplevel))
  {
  }

  /** One call of `update`: what the session reported while polling, and the time elapsed. */
  datatype Tick = Tick(reported: seq<ServerSessions.Event>, secs: real)

  /** The fields after a run of updates. */
  function Run(m: Menu, ticks: seq<Tick>): Menu
    decreases |ticks|
  {
    if ticks == [] then m else Run(MenuUpdate(m, ticks[0].reported, ticks[0].secs), ticks[1..])
  }

  /**
   * While loading on the name input with no result held, updates whose
   * session reports carry no result leave the spinner turning, the inputs
   * disabled and no error shown, however long they run. A connect failure
   * is reported by the session as CONNECTION_LOST, which is not a result.
   */
  lemma {:induction false} SpinsUntilResult(m: Menu, ticks: seq<Tick>)
    requires m.state == ShowOnlineNameInput && m.loading && m.submitResult == ServerSessions.NoEvent
    requires forall i :: 0 <= i < |ticks| ==> NoResults(ticks[i].reported)
    ensures var after := Run(m, ticks);
            after.state == ShowOnlineNameInput && after.loading && after.submitResult == ServerSessions.NoEvent
            && after.textBoxEnabled == m.textBoxEnabled && after.submitEnabled == m.submitEnabled
            && after.showConnectErr == m.showConnectErr && after.showTakenErr == m.showTakenErr
    decreases |ticks|
  {
    if ticks != [] {
      LatchAllIgnoresOthers(m.submitResult, ticks[0].reported);
      var next := MenuUpdate(m, ticks[0].reported, ticks[0].secs);
      assert next == m.(nameSubmitStopwatch := m.nameSubmitStopwatch + ticks[0].secs);
      forall i | 0 <= i < |ticks[1..]|
        ensures NoResults(ticks[1..][i].reported)
      {
        assert ticks[1..][i] == ticks[i + 1];
      }
      SpinsUntilResult(next, ticks[1..]);
    }
  }

  /** What the session reports when its connect fails is not a result the menu waits for. */
  lemma ConnectFailureIsNoResult(registered: bool)
    ensures NoResults(ServerSessions.Report(registered, ServerSessions.ConnectionLost))
    ensures LatchAll(ServerSessions.NoEvent, ServerSessions.Report(registered, ServerSessions.ConnectionLost))
            == ServerSessions.NoEvent
  {
    LatchAllIgnoresOthers(ServerSessions.NoEvent, ServerSessions.Report(registered, ServerSessions.ConnectionLost));
  }

  /**
   * An update whose poll ends a connect in failure, which `Update` returns
   * as CONNECTION_LOST, leaves a waiting name input spinning: only the
   * spinner's stopwatch moves, and no result or error appears.
   */
  lemma ConnectFailureKeepsSpinning(m: Menu, secs: real)
    requires m.state == ShowOnlineNameInput && m.loading && m.submitResult == ServerSessions.NoEvent
    ensures MenuUpdate(m, [ServerSessions.ConnectionLost], secs)
            == m.(nameSubmitStopwatch := m.nameSubmitStopwatch + secs)
  {
    ConnectFailureIsNoResult(true);
  }

  /** The text `std::to_string` gives for a natural number. */
  function DecimalString(n: nat): string
    decreases n
  {
    var digit := ('0' as int + n % 10) as char;
    if n < 10 then [digit] else DecimalString(n / 10) + [digit]
  }

  /** The text `std::to_string` gives for an integer. */
  function IntString(n: int): string
  {
    if n < 0 then "-" + DecimalString(-n) else DecimalString(n)
  }

  /** The label of a resolution in the resolution box. */
  function ResolutionLabel(cfg: Windows.WindowConfiguration): string
  {
    IntString(cfg.windowWidth) + " x " + IntString(cfg.windowHeight)
  }

  /**
   * What "apply" requests: the monitor's size in full screen; otherwise the
   * windowed mode at the box position read backwards, the box listing the
   * fitting modes from the largest; nothing when the box is empty.
   */
  function ApplyRequest(fullscreen: bool, selectedIdx: int, numModes: nat): (r: Option<Windows.WindowConfiguration>)
    requires numModes <= Windows.NUM_WINDOWED_CONFIG_MODES && -1 <= selectedIdx < numModes
    ensures fullscreen ==> r == Some(Windows.WindowConfiguration(true, 0, 0))
    ensures !fullscreen && selectedIdx == -1 ==> r == None
    ensures !fullscreen && selectedIdx >= 0 ==>
              r == Some(Windows.WINDOWED_CONFIG_MODES[numModes - 1 - selectedIdx]) && !r.value.isFullscreen
  {
    if fullscreen then Some(Windows.WindowConfiguration(true, 0, 0))
    else if selectedIdx != -1 then Some(Windows.WINDOWED_CONFIG_MODES[numModes - 1 - selectedIdx])
    else None
  }

  /** The mode inserted at box position `numModes - 1 - j` is the mode "apply" requests for that position. */
  lemma ApplyInvertsInsertion(j: nat, numModes: nat)
    requires j < numModes <= Windows.NUM_WINDOWED_CONFIG_MODES
    ensures ApplyRequest(false, numModes - 1 - j, numModes) == Some(Windows.WINDOWED_CONFIG_MODES[j])
  {
  }

  /**
   * `labels` name the first `n` entries of `modes` as `format` writes
   * them, from the last entry to the first.
   */
  ghost predicate Lists(labels: seq<string>, modes: seq<Windows.WindowConfiguration>, n: nat,
                        format: Windows.WindowConfiguration -> string)
  {
    |labels| == n <= |modes|
    && forall k {:trigger ListedLabel(modes, n, k, format)} :: 0 <= k < n ==> labels[k] == ListedLabel(modes, n, k, format)
  }

  /** The label at position `k` of a list of the first `n` entries of `modes`, from the last. */
  function ListedLabel(modes: seq<Windows.WindowConfiguration>, n: nat, k: nat,
                       format: Windows.WindowConfiguration -> string): string
    requires k < n <= |modes|
  {
    format(modes[n - 1 - k])
  }

  /**
   * In a box listing the fitting windowed modes, the label at the selected
   * position is the label of the mode "apply" requests for it.
   */
  lemma AppliedModeIsShown(labels: seq<string>, n: nat, sel: int)
    requires Lists(labels, Windows.WINDOWED_CONFIG_MODES, n, ResolutionLabel) && 0 <= sel < n
    ensures ApplyRequest(false, sel, n).Some?
    ensures labels[sel] == ResolutionLabel(ApplyRequest(false, sel, n).value)
  {
    assert labels[sel] == ListedLabel(Windows.WINDOWED_CONFIG_MODES, n, sel, ResolutionLabel);
  }

  /** The items show `labels`, in order. */
  ghost predicate Shows(items: seq<BoxSelectors.Item>, labels: seq<string>)
  {
    |items| == |labels| && forall k :: 0 <= k < |labels| ==> items[k].text == labels[k]
  }

  /** Appending an item that shows a label keeps the items showing the labels. */
  lemma ShowsAppend(items: seq<BoxSelectors.Item>, labels: seq<string>, item: BoxSelectors.Item, text: string)
    requires Shows(items, labels) && item.text == text
    ensures Shows(items + [item], labels + [text])
  {
  }

  class MainMenu {
    var currentState: State
    var fadeFromState: State
    var fadeToState: State
    var fadeStopwatch: real
    var olNameLoading: bool
    var olNameShowTakenErr: bool
    var olNameShowConnectErr: bool
    var olNameSubmitResult: ServerSessions.Event
    var nameSubmitStopwatch: real
    var nextReturnCode: ReturnCode
    /** The enabled flag of the submit zoom selector. */
    var submitEnabled: bool
    /** The number of windowed modes that fit the monitor, whose size stays the same. */
    const numModes: nat
    /** The labels the resolution box shows. */
    ghost const modeLabels: seq<string>
    const olNameTextBox: MenuTextBoxes.MenuTextBox
    const windowedSelButton: SelectableButtons.SelectableButton
    const fullscreenSelButton: SelectableButtons.SelectableButton
    const resolutionBoxSel: BoxSelectors.BoxSelector
    const session: ServerSessions.ServerSession

    /** The menu's own fields. */
    ghost function Fields(): Menu
      reads this, olNameTextBox`enabled
    {
      Menu(currentState, fadeFromState, fadeToState, fadeStopwatch, olNameLoading, olNameTextBox.enabled,
           submitEnabled, olNameShowTakenErr, olNameShowConnectErr, olNameSubmitResult, nameSubmitStopwatch,
           nextReturnCode)
    }

    /**
     * The text box holds 15 characters, the window-mode buttons are two
     * with the menu's callback, and the session is well formed with the
     * menu's callback registered.
     */
    ghost predicate Valid()
      reads olNameTextBox`numChars, olNameTextBox.content, windowedSelButton`callback, fullscreenSelButton`callback,
            session`connection, session`callback, session.Footprint()
    {
      olNameTextBox.Valid() && olNameTextBox.maxChars == OL_NAME_TB_MAX_CHARS
      && windowedSelButton != fullscreenSelButton
      && windowedSelButton.callback && fullscreenSelButton.callback
      && session.Valid() && session.callback
    }

    /**
     * The resolution box is well formed and shows `modeLabels`, one label
     * per fitting mode. No method of the menu changes the box, so what
     * holds of it after construction holds for good.
     */
    ghost predicate BoxValid()
      reads resolutionBoxSel, resolutionBoxSel.items
    {
      resolutionBoxSel.Valid() && Shows(resolutionBoxSel.items, modeLabels)
      && |modeLabels| == numModes && numModes <= Windows.NUM_WINDOWED_CONFIG_MODES
    }

    /**
     * The labels the resolution box shows are those of the fitting modes,
     * the largest first. They never change after construction.
     */
    ghost predicate ShowsFittingModes()
    {
      Lists(modeLabels, Windows.WINDOWED_CONFIG_MODES, numModes, ResolutionLabel)
    }

    /** Exactly one of the window-mode buttons is selected. */
    ghost predicate RadioExclusive()
      reads windowedSelButton`selected, fullscreenSelButton`selected
    {
      windowedSelButton.selected != fullscreenSelButton.selected
    }

    /**
     * The box loop of the constructor over the first `n` entries of the
     * windowed mode table `modes`, each shown under the text `format` gives
     * it: they are added from the last down, none of them flagged, so the
     * first added is selected.
     */
    static method NewResolutionBox(modes: seq<Windows.WindowConfiguration>, n: nat,
                                   format: Windows.WindowConfiguration -> string)
      returns (box: BoxSelectors.BoxSelector, ghost labels: seq<string>)
      requires n <= |modes|
      ensures fresh(box) && box.Valid() && Shows(box.items, labels) && Lists(labels, modes, n, format)
      ensures box.sel == if n > 0 then 0 else -1
    {
      box := new BoxSelectors.BoxSelector();
      labels := [];
      var i: int := n - 1;
      while i >= 0
        invariant -1 <= i < n && box.Valid() && |labels| == n - 1 - i && Shows(box.items, labels)
        invariant forall k :: 0 <= k < |labels| ==> labels[k] == format(modes[n - 1 - k])
        invariant box.sel == if |box.items| > 0 then 0 else -1
        invariant fresh(box) && (box.itemListTail == null || fresh(box.itemListTail))
        decreases i
      {
        ghost var before := box.items;
        var text := format(modes[i]);
        box.AddItem(text, false);
        assert box.items == before + [box.items[|before|]];
        ShowsAppend(before, labels, box.items[|before|], text);
        labels := labels + [text];
        i := i - 1;
      }
    }

    /**
     * The settings box of the constructor: the windowed modes that fit the
     * monitor, labelled as `std::to_string` writes their sizes.
     */
    static method FittingModesBox(monitorWidth: int, monitorHeight: int)
      returns (box: BoxSelectors.BoxSelector, n: nat, ghost labels: seq<string>)
      ensures fresh(box) && box.Valid() && Shows(box.items, labels)
      ensures Lists(labels, Windows.WINDOWED_CONFIG_MODES, n, ResolutionLabel)
      ensures n == Windows.CountFitting(Windows.WINDOWED_CONFIG_MODES, monitorWidth, monitorHeight)
      ensures box.sel == if n > 0 then 0 else -1
    {
      n := Windows.GetNumWindowedConfigModes(monitorWidth, monitorHeight);
      Windows.ModesIncreasing();
      box, labels := NewResolutionBox(Windows.WINDOWED_CONFIG_MODES, n, ResolutionLabel);
    }

    /**
     * The window-mode buttons of the constructor: the windowed one selected
     * exactly when the window is not in full screen, the other exactly when
     * it is, both with the menu's callback.
     */
    static method NewModeButtons(textureWidth: real, textureHeight: real, isFullscreen: bool)
      returns (windowed: SelectableButtons.SelectableButton, fullscreen: SelectableButtons.SelectableButton)
      ensures fresh(windowed) && fresh(fullscreen) && windowed != fullscreen
      ensures windowed.callback && fullscreen.callback
      ensures windowed.selected == !isFullscreen && fullscreen.selected == isFullscreen
    {
      windowed := new SelectableButtons.SelectableButton(textureWidth, textureHeight, !isFullscreen);
      fullscreen := new SelectableButtons.SelectableButton(textureWidth, textureHeight, isFullscreen);
      windowed.SetCallback(true);
      fullscreen.SetCallback(true);
    }

    /**
     * The constructor's menu: the initial fade, no result held, no error,
     * the window-mode buttons showing the window's mode, the resolution
     * box listing the fitting modes from the largest, with the largest
     * selected, and a session without connection reporting to the menu.
     * The source leaves the fade states, the loading flag and the
     * submission stopwatch unset; the model starts them as shown.
     */
    constructor (isFullscreen: bool, monitorWidth: int, monitorHeight: int,
                 buttonTextureWidth: real, buttonTextureHeight: real)
      ensures Valid() && BoxValid() && RadioExclusive() && ShowsFittingModes()
      ensures Fields() == Menu(InitialFade, InitialFade, InitialFade, 0.0, false, true, true, false, false,
                               ServerSessions.NoEvent, 0.0, KeepRunning)
      ensures windowedSelButton.selected == !isFullscreen
      ensures numModes == Windows.CountFitting(Windows.WINDOWED_CONFIG_MODES, monitorWidth, monitorHeight)
      ensures resolutionBoxSel.sel == if numModes > 0 then 0 else -1
      ensures olNameTextBox.Text() == [] && session.connection == null
    {
      var box, n, labels := FittingModesBox(monitorWidth, monitorHeight);
      var s := new ServerSessions.ServerSession();
      s.RegisterCallback(true);
      var windowed, fullscreen := NewModeButtons(buttonTextureWidth, buttonTextureHeight, isFullscreen);
      currentState, fadeFromState, fadeToState := InitialFade, InitialFade, InitialFade;
      fadeStopwatch := 0.0;
      olNameLoading, olNameShowTakenErr, olNameShowConnectErr := false, false, false;
      olNameSubmitResult := ServerSessions.NoEvent;
      nameSubmitStopwatch := 0.0;
      nextReturnCode := KeepRunning;
      submitEnabled := true;
      numModes := n;
      olNameTextBox := new MenuTextBoxes.MenuTextBox(OL_NAME_TB_MAX_CHARS);
      windowedSelButton, fullscreenSelButton := windowed, fullscreen;
      resolutionBoxSel := box;
      modeLabels := labels;
      session := s;
    }

    /**
     * The destructor: of what it deletes, only the session does more than
     * free memory. Deleting it deletes the session's connection, which
     * closes the socket.
     */
    method Destroy()
      modifies session.Footprint()
      ensures session.connection != null ==> session.connection.Phase() == Connections.Closed
    {
      session.Destroy();
    }

    /** `initiateFadeToState`. */
    method InitiateFadeToState(nextState: State)
      modifies this`olNameShowTakenErr, this`olNameShowConnectErr, this`fadeStopwatch,
               this`fadeFromState, this`fadeToState, this`currentState
      ensures Fields() == FadeTo(old(Fields()), nextState)
    {
      if nextState == ShowOnlineNameInput {
        olNameShowTakenErr := false;
        olNameShowConnectErr := false;
      }
      fadeStopwatch := 0.0;
      fadeFromState := currentState;
      fadeToState := nextState;
      currentState := FadeTransition;
    }

    /** `onSessionEvent`: the callback the menu registers with its session. */
    method OnSessionEvent(event: ServerSessions.Event)
      modifies this`olNameSubmitResult
      ensures olNameSubmitResult == Latch(old(olNameSubmitResult), event)
      ensures IsResult(event) <==> olNameSubmitResult == event && event != ServerSessions.NoEvent
                                   && event != ServerSessions.ConnectionSuspended
                                   && event != ServerSessions.ConnectionResumed
                                   && event != ServerSessions.ConnectionLost
    {
      if IsResult(event) {
        olNameSubmitResult := event;
      }
    }

    /** The session's events reach `onSessionEvent` in the order it reported them. */
    method DeliverSessionEvents(reported: seq<ServerSessions.Event>)
      modifies this`olNameSubmitResult
      ensures olNameSubmitResult == LatchAll(old(olNameSubmitResult), reported)
    {
      for i := 0 to |reported|
        invariant olNameSubmitResult == LatchAll(old(olNameSubmitResult), reported[..i])
      {
        assert reported[..i + 1][..i] == reported[..i];
        OnSessionEvent(reported[i]);
      }
      assert reported[..|reported|] == reported;
    }

    /**
     * The name input's loading state: the spinner shows exactly while the
     * text box and the submit button are disabled.
     */
    method SetNameLoading(loading: bool)
      modifies this`olNameLoading, this`submitEnabled, olNameTextBox`enabled
      ensures Fields() == old(Fields()).(loading := loading, textBoxEnabled := !loading, submitEnabled := !loading)
    {
      olNameLoading := loading;
      olNameTextBox.SetEnabled(!loading);
      submitEnabled := !loading;
    }

    /** `handleNameSubmissionResult`. */
    method HandleNameSubmissionResult()
      modifies this, olNameTextBox`enabled
      ensures Fields() == HandleResult(old(Fields()))
    {
      match olNameSubmitResult
      case ConnectionFailed =>
        SetNameLoading(false);
        olNameShowConnectErr := true;
      case NameRejected =>
        SetNameLoading(false);
        olNameShowTakenErr := true;
      case NameAccepted =>
        InitiateFadeToState(ShowToplevel);
      case _ =>
    }

    /** The state part of `updateForState`. */
    method UpdateForState(menuState: State, secs: real)
      modifies this, olNameTextBox`enabled
      ensures Fields() == UpdateFor(old(Fields()), menuState, secs)
    {
      if menuState == ShowOnlineNameInput {
        if olNameLoading {
          nameSubmitStopwatch := nameSubmitStopwatch + secs;
        }
        if olNameSubmitResult != ServerSessions.NoEvent {
          if nameSubmitStopwatch >= OL_NAME_SUBMIT_MIN_LOAD_TIME {
            HandleNameSubmissionResult();
            ghost var handled := Fields();
            olNameSubmitResult := ServerSessions.NoEvent;
            assert Fields() == handled.(submitResult := ServerSessions.NoEvent);
          }
        }
      }
    }

    /** The state switch of `update`. */
    method UpdateState(secs: real)
      modifies this, olNameTextBox`enabled
      ensures Fields() == StateUpdate(old(Fields()), secs)
    {
      ghost var m0 := Fields();
      if currentState == InitialFade {
        fadeStopwatch := fadeStopwatch + secs;
        if fadeStopwatch >= INIT_FADE_END_TIME {
          currentState := ShowToplevel;
        }
        assert Fields() == Advance(m0, secs, INIT_FADE_END_TIME, ShowToplevel);
        UpdateForState(ShowToplevel, secs);
      } else if currentState == FadeTransition {
        fadeStopwatch := fadeStopwatch + secs;
        if fadeStopwatch >= TRANS_FADE_IN_END_TIME {
          currentState := fadeToState;
        }
        assert Fields() == Advance(m0, secs, TRANS_FADE_IN_END_TIME, m0.fadeTo);
        UpdateForState(fadeFromState, secs);
        UpdateForState(fadeToState, secs);
      } else {
        UpdateForState(currentState, secs);
      }
    }

    /**
     * `update`: polls the session, whose events reach `onSessionEvent`
     * while it polls, then updates the state. An exception from the poll
     * leaves `update` before the state is touched. On success the events
     * the session reported are returned: a connect that completes reports
     * NAME_ACCEPTED, one that fails or times out reports CONNECTION_LOST,
     * and every other poll reports nothing. A closed connection is left
     * as it is, and an established one receives, silently.
     */
    method Update<M>(secs: real, probe: Connections.ConnectProbe, queued: seq<Wire.byte>,
                     peer: Connections.PeerState, parse: seq<Wire.byte> -> Option<M>)
      returns (r: Result<seq<ServerSessions.Event>, string>)
      requires Valid()
      modifies this, olNameTextBox`enabled, session`connection, session.Footprint()
      ensures Valid()
      ensures r.Failure? ==> Fields() == old(Fields())
      ensures r.Success? ==> Fields() == MenuUpdate(old(Fields()), r.value, secs)
      ensures old(session.connection) == null ==> r == Success([])
      ensures old(session.connection) != null && old(session.connection.Phase()) != Connections.Connecting ==>
                r == Success([]) && session.connection == old(session.connection)
      ensures old(session.connection) != null && old(session.connection.Phase()) == Connections.Closed ==>
                unchanged(session.connection, session.connection.recvBuffer)
      ensures old(session.connection) != null && old(session.connection.Phase()) == Connections.Open ==>
                session.connection.ReceivedAsExpected<M>(old(session.connection.Buffered()),
                                                         old(session.connection.received),
                                                         old(session.connection.delivered), queued, peer, parse, [])
      ensures old(session.connection) != null && old(session.connection.Phase()) == Connections.Connecting ==>
                (probe == Connections.SelectFailed <==> r.Failure?)
                && (probe == Connections.Writable ==> r == Success([ServerSessions.NameAccepted]))
                && (probe == Connections.SocketError
                    || (probe == Connections.Pending
                        && old(session.connection.timer) + secs > ServerSessions.CONNECT_TIMEOUT) ==>
                      r == Success([ServerSessions.ConnectionLost]) && session.connection == null)
                && (probe == Connections.Pending
                    && old(session.connection.timer) + secs <= ServerSessions.CONNECT_TIMEOUT ==>
                      r == Success([]))
      ensures old(session.connection) != null && old(session.connection.Phase()) == Connections.Connecting ==>
                (probe == Connections.SelectFailed ==>
                   session.connection == old(session.connection) && session.connection.Phase() == Connections.Closed)
                && (probe == Connections.Writable ==>
                      session.connection == old(session.connection) && session.connection.Phase() == Connections.Open)
                && (probe == Connections.Pending
                    && old(session.connection.timer) + secs <= ServerSessions.CONNECT_TIMEOUT ==>
                      session.connection == old(session.connection)
                      && session.connection.Phase() == Connections.Connecting
                      && session.connection.timer == old(session.connection.timer) + secs)
    {
      var polled := PollSession(secs, probe, queued, peer, parse);
      if polled.Failure? {
        return Failure(polled.error);
      }
      label Polled:
      UpdateFields(polled.value, secs);
      assert session.connection != null ==> unchanged@Polled(session.connection, session.connection.recvBuffer);
      r := Success(polled.value);
    }

    /**
     * The session's poll in `update`, with the menu's callback registered,
     * so every report reaches the menu: what the poll returns and what
     * becomes of the session's connection, case by case.
     */
    method PollSession<M>(secs: real, probe: Connections.ConnectProbe, queued: seq<Wire.byte>,
                          peer: Connections.PeerState, parse: seq<Wire.byte> -> Option<M>)
      returns (polled: Result<seq<ServerSessions.Event>, string>)
      requires Valid()
      modifies session`connection, session.Footprint()
      ensures Valid()
      ensures old(session.connection) == null ==> polled == Success([])
      ensures old(session.connection) != null && old(session.connection.Phase()) != Connections.Connecting ==>
                polled == Success([]) && session.connection == old(session.connection)
      ensures old(session.connection) != null && old(session.connection.Phase()) == Connections.Closed ==>
                unchanged(session.connection, session.connection.recvBuffer)
      ensures old(session.connection) != null && old(session.connection.Phase()) == Connections.Open ==>
                session.connection.ReceivedAsExpected<M>(old(session.connection.Buffered()),
                                                         old(session.connection.received),
                                                         old(session.connection.delivered), queued, peer, parse, [])
      ensures old(session.connection) != null && old(session.connection.Phase()) == Connections.Connecting ==>
                (probe == Connections.SelectFailed <==> polled.Failure?)
                && (probe == Connections.Writable ==> polled == Success([ServerSessions.NameAccepted]))
                && (probe == Connections.SocketError
                    || (probe == Connections.Pending
                        && old(session.connection.timer) + secs > ServerSessions.CONNECT_TIMEOUT) ==>
                      polled == Success([ServerSessions.ConnectionLost]) && session.connection == null)
                && (probe == Connections.Pending
                    && old(session.connection.timer) + secs <= ServerSessions.CONNECT_TIMEOUT ==>
                      polled == Success([]))
      ensures old(session.connection) != null && old(session.connection.Phase()) == Connections.Connecting ==>
                (probe == Connections.SelectFailed ==>
                   session.connection == old(session.connection) && session.connection.Phase() == Connections.Closed)
                && (probe == Connections.Writable ==>
                      session.connection == old(session.connection) && session.connection.Phase() == Connections.Open)
                && (probe == Connections.Pending
                    && old(session.connection.timer) + secs <= ServerSessions.CONNECT_TIMEOUT ==>
                      session.connection == old(session.connection)
                      && session.connection.Phase() == Connections.Connecting
                      && session.connection.timer == old(session.connection.timer) + secs)
    {
      polled := session.Poll(secs, probe, queued, peer, parse);
    }

    /** The rest of `update` once the session's poll returned: the events reach `onSessionEvent`, then the state switch. */
    method UpdateFields(reported: seq<ServerSessions.Event>, secs: real)
      modifies this, olNameTextBox`enabled
      ensures Fields() == MenuUpdate(old(Fields()), reported, secs)
    {
      DeliverSessionEvents(reported);
      UpdateState(secs);
    }

    /**
     * `triggerNameSubmission`: with a name typed, starts the spinner,
     * disables the inputs, clears the errors and opens the session; a
     * failed connect is reported as CONNECTION_LOST, which leaves the
     * result held unchanged.
     */
    method TriggerNameSubmission(os: Connections.SetupReport)
      requires Valid()
      modifies this`olNameLoading, this`submitEnabled, this`olNameShowConnectErr, this`olNameShowTakenErr,
               this`nameSubmitStopwatch, this`olNameSubmitResult, olNameTextBox`enabled, session`connection
      ensures Valid()
      ensures Fields() == Submit(old(Fields()), old(olNameTextBox.Text()) == [])
      ensures old(olNameTextBox.Text()) == [] ==> session.connection == old(session.connection)
      ensures old(olNameTextBox.Text()) != [] && old(session.connection) == null ==>
                (session.connection != null <==> ServerSessions.SetupSucceeds(os))
    {
      ghost var m0 := Fields();
      var name := olNameTextBox.GetContent();
      if name != [] {
        SetNameLoading(true);
        olNameShowConnectErr := false;
        olNameShowTakenErr := false;
        nameSubmitStopwatch := 0.0;
        assert Fields() == Submit(m0, false);
        OpenSession(name, os);
      }
    }

    /**
     * `open` on the menu's session, whose reports reach `onSessionEvent`:
     * a connect failure is reported as CONNECTION_LOST, which is no result,
     * so the result held stays as it was.
     */
    method OpenSession(name: string, os: Connections.SetupReport)
      requires session.Valid()
      modifies session`connection, this`olNameSubmitResult
      ensures session.Valid() && olNameSubmitResult == old(olNameSubmitResult)
      ensures old(session.connection) != null ==> session.connection == old(session.connection)
      ensures old(session.connection) == null ==> (session.connection != null <==> ServerSessions.SetupSucceeds(os))
    {
      var reported := session.Open(name, os);
      LatchAllIgnoresOthers(olNameSubmitResult, reported);
      DeliverSessionEvents(reported);
    }

    /**
     * `onKeyPressed`: only the name input takes keys; enter submits the
     * name and every other key edits the text box.
     */
    method OnKeyPressed(key: int, os: Connections.SetupReport)
      requires Valid()
      modifies this, olNameTextBox`enabled, olNameTextBox`numChars, olNameTextBox.content, session`connection
      ensures Valid()
      ensures Fields() == KeyPress(old(Fields()), key, old(olNameTextBox.Text()) == [])
      ensures olNameTextBox.Text() ==
                if old(currentState) == ShowOnlineNameInput && key != KEY_ENTER
                then MenuTextBoxes.Edit(old(olNameTextBox.Text()), key, OL_NAME_TB_MAX_CHARS)
                else old(olNameTextBox.Text())
    {
      if currentState == ShowOnlineNameInput {
        if key == KEY_ENTER {
          TriggerNameSubmission(os);
        } else {
          olNameTextBox.OnKeyPressed(key);
        }
      }
    }

    /**
     * `onZoomSelectorClicked`; "apply" returns the configuration it hands
     * to the window request callback. A windowed request is the mode whose
     * label the resolution box shows.
     */
    method OnZoomSelectorClicked(source: ZoomSource, index: int, os: Connections.SetupReport)
      returns (request: Option<Windows.WindowConfiguration>)
      requires Valid() && BoxValid() && ShowsFittingModes()
      modifies this, olNameTextBox`enabled, session`connection
      ensures Valid() && BoxValid()
      ensures Fields() == ZoomClick(old(Fields()), source, index, old(olNameTextBox.Text()) == [])
      ensures source != SettingsApplyZoomSel ==> request == None
      ensures source == SettingsApplyZoomSel ==>
                request == ApplyRequest(fullscreenSelButton.selected, resolutionBoxSel.sel, numModes)
                && (request.Some? <==> fullscreenSelButton.selected || resolutionBoxSel.items != [])
    {
      request := None;
      match source
      case ToplevelZoomSel =>
        OnToplevelSelected(index);
      case SettingsApplyZoomSel =>
        request := ApplySettings();
      case SettingsBackZoomSel =>
        InitiateFadeToState(ShowToplevel);
      case OlNameSubmitZoomSel =>
        TriggerNameSubmission(os);
      case OlNameBackZoomSel =>
        InitiateFadeToState(ShowToplevel);
    }

    /**
     * The top-level branch of `onZoomSelectorClicked`: "play online"
     * re-enables the name input and fades to it, "settings" fades to the
     * settings, "exit" sets the return code, and "play local game" and
     * any other index do nothing.
     */
    method OnToplevelSelected(index: int)
      modifies this`olNameLoading, this`submitEnabled, this`olNameShowTakenErr, this`olNameShowConnectErr,
               this`fadeStopwatch, this`fadeFromState, this`fadeToState, this`currentState, this`nextReturnCode,
               olNameTextBox`enabled
      ensures Fields() == ZoomClick(old(Fields()), ToplevelZoomSel, index, false)
    {
      if index == 1 {
        SetNameLoading(false);
        InitiateFadeToState(ShowOnlineNameInput);
      } else if index == 2 {
        InitiateFadeToState(ShowSettings);
      } else if index == 3 {
        nextReturnCode := ExitProgram;
      }
    }

    /**
     * The "apply" branch of `onZoomSelectorClicked`: full screen at the
     * monitor's size when the full-screen button is selected, and otherwise
     * the windowed mode whose label the resolution box shows selected, or
     * nothing when the box is empty.
     */
    method ApplySettings() returns (request: Option<Windows.WindowConfiguration>)
      requires BoxValid() && ShowsFittingModes()
      ensures request == ApplyRequest(fullscreenSelButton.selected, resolutionBoxSel.sel, numModes)
      ensures request.Some? <==> fullscreenSelButton.selected || resolutionBoxSel.items != []
      ensures request.Some? && !fullscreenSelButton.selected ==>
                !request.value.isFullscreen
                && resolutionBoxSel.selectedItem.text == ResolutionLabel(request.value)
    {
      request := None;
      var fullscreen := fullscreenSelButton.IsSelected();
      if fullscreen {
        request := Some(Windows.WindowConfiguration(true, 0, 0));
      } else {
        var selectedIdx := resolutionBoxSel.GetSelectedIndex();
        if selectedIdx != -1 {
          AppliedModeIsShown(modeLabels, numModes, selectedIdx);
          selectedIdx := numModes - 1 - selectedIdx;
          request := Some(Windows.WINDOWED_CONFIG_MODES[selectedIdx]);
        }
      }
    }

    /** `onSelectableButtonSelected`: selecting one window-mode button deselects the other. */
    method OnSelectableButtonSelected(source: SelectableButtons.SelectableButton)
      requires windowedSelButton != fullscreenSelButton
      modifies windowedSelButton`selected, fullscreenSelButton`selected
      ensures source == windowedSelButton ==>
                !fullscreenSelButton.selected && windowedSelButton.selected == old(windowedSelButton.selected)
      ensures source == fullscreenSelButton && source != windowedSelButton ==>
                !windowedSelButton.selected && fullscreenSelButton.selected == old(fullscreenSelButton.selected)
      ensures source != windowedSelButton && source != fullscreenSelButton ==>
                unchanged(windowedSelButton, fullscreenSelButton)
    {
      if source == windowedSelButton {
        fullscreenSelButton.SetSelected(false);
      } else if source == fullscreenSelButton {
        windowedSelButton.SetSelected(false);
      }
    }

    /**
     * A press on a window-mode button in the settings submenu, with the
     * button's callback, which is the menu's, run when the press selects
     * it: the pressed button ends up selected and exactly one of the two
     * stays selected.
     */
    method PressModeButton(b: SelectableButtons.SelectableButton, hit: bool)
      requires Valid() && RadioExclusive()
      requires b == windowedSelButton || b == fullscreenSelButton
      modifies windowedSelButton`selected, fullscreenSelButton`selected
      ensures Valid() && RadioExclusive()
      ensures hit ==> b.selected
      ensures !hit ==> unchanged(windowedSelButton, fullscreenSelButton)
    {
      var fired := b.OnMousePressed(hit);
      if fired {
        OnSelectableButtonSelected(b);
      }
    }
  }
}

=== FILE: menu_text_box.dfy ===
/**
 * The editing logic of the main menu's text box (client/src/MenuTextBox.cpp):
 * a NUL-terminated character buffer of `maxChars + 1` cells that accepts
 * digits and capital letters up to `maxChars` characters and backspace.
 */
module MenuTextBoxes {

  /** raylib's key code for backspace. */
  const KEY_BACKSPACE: int := 259

  /** The keys the box accepts as characters: '0' to '9' and 'A' to 'Z'. */
  predicate IsCharKey(key: int)
  {
    ('0' as int <= key <= '9' as int) || ('A' as int <= key <= 'Z' as int)
  }

  /** Text made of accepted characters only. */
  predicate Accepted(text: string)
  {
    forall i :: 0 <= i < |text| ==> IsCharKey(text[i] as int)
  }

  /**
   * The text after a key press: an accepted key is appended while there
   * is room, backspace drops the last character, and every other key,
   * lower-case letters included, changes nothing.
   */
  function Edit(text: string, key: int, maxChars: nat): string
  {
    if IsCharKey(key) then
      if |text| < maxChars then text + [key as char] else text
    else if key == KEY_BACKSPACE && |text| > 0 then text[..|text| - 1]
    else text
  }

  /** Editing keeps the text within `maxChars` characters, all of them accepted ones. */
  lemma EditKeepsBound(text: string, key: int, maxChars: nat)
    requires |text| <= maxChars && Accepted(text)
    ensures var r := Edit(text, key, maxChars);
            |r| <= maxChars && Accepted(r)
  {
    var r := Edit(text, key, maxChars);
    forall i | 0 <= i < |r|
      ensures IsCharKey(r[i] as int)
    {
      if i < |text| {
        assert r[i] == text[i];
      }
    }
  }

  /** Backspace undoes a character that was appended, and only a full box ignores one. */
  lemma BackspaceUndoesAppend(text: string, key: int, maxChars: nat)
    requires IsCharKey(key)
    ensures |text| < maxChars ==> Edit(Edit(text, key, maxChars), KEY_BACKSPACE, maxChars) == text
    ensures Edit(text, key, maxChars) == text <==> |text| >= maxChars
  {
    if |text| < maxChars {
      assert (text + [key as char])[..|text|] == text;
    }
  }

  class MenuTextBox {
    const maxChars: nat
    const content: array<char>
    var numChars: int
    var enabled: bool
    var width: real
    var height: real
    var fontSize: real

    /** The buffer holds `numChars` accepted characters, at most `maxChars`, then the terminator. */
    ghost predicate Valid()
      reads this`numChars, content
    {
      content.Length == maxChars + 1
      && 0 <= numChars <= maxChars
      && content[numChars] == '\0'
      && Accepted(content[..numChars])
    }

    /** The characters typed so far. */
    ghost function Text(): string
      reads this`numChars, content
      requires Valid()
    {
      content[..numChars]
    }

    /**
     * `getContent`, declared in client/src/MenuTextBox.h: the typed
     * characters as a string.
     */
    method GetContent() returns (s: string)
      requires Valid()
      ensures s == Text() && |s| <= maxChars && Accepted(s)
    {
      s := content[..numChars];
    }

    /** A new box is empty and enabled. */
    constructor (maxChars: nat)
      ensures Valid() && Text() == [] && enabled && this.maxChars == maxChars
      ensures fresh(content)
    {
      this.maxChars := maxChars;
      enabled := true;
      content := new char[maxChars + 1];
      new;
      content[0] := '\0';
      numChars := 0;
    }

    /** `setSize`: the height and the font size are `h`, the width at least `h`. */
    method SetSize(w: real, h: real)
      modifies this`width, this`height, this`fontSize
      ensures width == (if w >= h then w else h) && height == h && fontSize == h
      ensures width >= w && width >= h
    {
      if w >= h {
        width := w;
      } else {
        width := h;
      }
      height := h;
      fontSize := h;
    }

    /** `setEnabled`: records the flag; editing does not consult it. */
    method SetEnabled(e: bool)
      modifies this`enabled
      ensures enabled == e
    {
      enabled := e;
    }

    /** `onKeyPressed`: edits the buffer in place as `Edit` prescribes, whether or not the box is enabled. */
    method OnKeyPressed(key: int)
      requires Valid()
      modifies this`numChars, content
      ensures Valid()
      ensures Text() == Edit(old(Text()), key, maxChars)
    {
      EditKeepsBound(Text(), key, maxChars);
      if IsCharKey(key) {
        if numChars < maxChars {
          content[numChars] := key as char;
          numChars := numChars + 1;
          content[numChars] := '\0';
          assert content[..numChars] == old(content[..numChars]) + [key as char];
        }
      } else if key == KEY_BACKSPACE && numChars > 0 {
        numChars := numChars - 1;
        content[numChars] := '\0';
        assert content[..numChars] == old(content[..numChars])[..numChars];
      }
    }
  }
}

=== FILE: paths.dfy ===
/**
 * The path arithmetic shared by both copies of `Util` (client/src/Util.cpp
 * and src/Util.cpp): locating the last directory separator of the
 * executable's path, cutting the executable's directory out of it, and
 * composing the path of a resource file.
 */
module Paths {

  /** Both separators are recognised whatever the platform. */
  predicate IsSeparator(c: char)
  {
    c == '/' || c == '\\'
  }

  /** A string with no separator in it: a bare file name. */
  predicate NoSeparator(s: string)
  {
    forall i :: 0 <= i < |s| ==> !IsSeparator(s[i])
  }

  /** The contents of a C string: no NUL before its terminator. */
  predicate IsCString(s: string)
  {
    forall i :: 0 <= i < |s| ==> s[i] != '\0'
  }

  /**
   * The position of the last separator in `s`, or -1 when there is none.
   * The contract pins the result down: a separator at `r` and none after it.
   */
  function LastSeparator(s: string): (r: int)
    ensures -1 <= r < |s|
    ensures r >= 0 ==> IsSeparator(s[r])
    ensures forall i :: r < i < |s| ==> !IsSeparator(s[i])
  {
    if s == [] then -1
    else if IsSeparator(s[|s| - 1]) then |s| - 1
    else LastSeparator(s[..|s| - 1])
  }

  /** `std::string::operator[]`: the character at `pos`, and the terminator at the string's length. */
  function CharAt(s: string, pos: int): char
    requires 0 <= pos <= |s|
  {
    if pos < |s| then s[pos] else '\0'
  }

  /**
   * `substr(0, count)` with an `int` count: a negative count converts to a
   * huge `size_t`, and a count past the end keeps the whole string.
   */
  function SubstrFromStart(s: string, count: int): string
  {
    if count < 0 || count >= |s| then s else s[..count]
  }

  /** The directory `registerRunArgs` keeps: everything before the last separator, or the whole path without one. */
  function ExeDir(argv0: string): string
  {
    SubstrFromStart(argv0, LastSeparator(argv0))
  }

  /**
   * The scanning loop of `registerRunArgs`: walks the string up to its
   * terminator and remembers the position of the latest separator seen.
   */
  method FindLastSeparator(fullPath: string) returns (lastSlash: int)
    requires IsCString(fullPath)
    ensures lastSlash == LastSeparator(fullPath)
  {
    var pos := 0;
    lastSlash := -1;
    while CharAt(fullPath, pos) != '\0'
      invariant 0 <= pos <= |fullPath|
      invariant lastSlash == LastSeparator(fullPath[..pos])
      decreases |fullPath| - pos
    {
      assert fullPath[..pos + 1][..pos] == fullPath[..pos];
      if CharAt(fullPath, pos) == '/' || CharAt(fullPath, pos) == '\\' {
        lastSlash := pos;
      }
      pos := pos + 1;
    }
    assert fullPath[..pos] == fullPath;
  }

  /**
   * The executable's path is its directory, one separator and a bare file
   * name; a path without a separator is its own directory.
   */
  lemma ExeDirSplitsPath(argv0: string)
    ensures NoSeparator(argv0) ==> ExeDir(argv0) == argv0
    ensures !NoSeparator(argv0) ==>
              var d := ExeDir(argv0);
              |d| < |argv0| && IsSeparator(argv0[|d|]) && NoSeparator(argv0[|d| + 1..])
              && argv0 == d + [argv0[|d|]] + argv0[|d| + 1..]
  {
    var r := LastSeparator(argv0);
    if !NoSeparator(argv0) {
      var k :| 0 <= k < |argv0| && IsSeparator(argv0[k]);
      assert r >= k;
      var d := ExeDir(argv0);
      assert d == argv0[..r];
      var name := argv0[r + 1..];
      forall i | 0 <= i < |name|
        ensures !IsSeparator(name[i])
      {
        assert name[i] == argv0[r + 1 + i];
      }
      assert argv0 == argv0[..r] + [argv0[r]] + argv0[r + 1..];
    }
  }

  /** Joining a directory and a bare file name with a separator, then taking `ExeDir`, gives the directory back. */
  lemma ExeDirOfJoin(dir: string, sep: char, file: string)
    requires IsSeparator(sep) && NoSeparator(file)
    ensures ExeDir(dir + [sep] + file) == dir
  {
    var p := dir + [sep] + file;
    var r := LastSeparator(p);
    assert p[|dir|] == sep;
    forall i | |dir| < i < |p|
      ensures !IsSeparator(p[i])
    {
      assert p[i] == file[i - |dir| - 1];
    }
    assert r == |dir|;
    assert p[..r] == dir;
  }

  /**
   * `formResourcePath`: under `resourceName` in `res/`, which a macOS
   * release build looks up beside the executable and every other build
   * relative to the working directory.
   */
  function ResourcePath(exeDir: string, resourceName: string, osxRelease: bool): string
  {
    if osxRelease then exeDir + "/res/" + resourceName else "res/" + resourceName
  }

  /**
   * A resource named by a bare file name sits directly in the `res`
   * directory the build selects, under its own name.
   */
  lemma ResourceDirectory(exeDir: string, resourceName: string, osxRelease: bool)
    requires NoSeparator(resourceName)
    ensures var p := ResourcePath(exeDir, resourceName, osxRelease);
            ExeDir(p) == (if osxRelease then exeDir + "/res" else "res")
            && |resourceName| <= |p| && p[|p| - |resourceName|..] == resourceName
  {
    var dir := if osxRelease then exeDir + "/res" else "res";
    assert ResourcePath(exeDir, resourceName, osxRelease) == dir + ['/'] + resourceName;
    ExeDirOfJoin(dir, '/', resourceName);
  }

  /**
   * Launched as `dir/exe`, a macOS release build finds its resources in
   * `dir/res`, beside the executable, whichever separator the launch used.
   */
  lemma ResourcesBesideExecutable(dir: string, sep: char, exe: string, resourceName: string)
    requires IsSeparator(sep) && NoSeparator(exe)
    ensures ResourcePath(ExeDir(dir + [sep] + exe), resourceName, true) == dir + "/res/" + resourceName
  {
    ExeDirOfJoin(dir, sep, exe);
  }
}

=== FILE: selectable_button.dfy ===
/**
 * The state of a two-state button (src/SelectableButton.cpp): a click on
 * the button selects it, nothing but `setSelected` deselects it, and the
 * callback runs when a click selects a button that was not selected.
 *
 * Whether a click lands inside the button is an input; a registered
 * callback is a flag, and a call reports whether it ran the callback.
 */
module SelectableButtons {

  class SelectableButton {
    /** The width and height of the button's texture, in pixels. */
    const textureWidth: real
    const textureHeight: real
    var selected: bool
    var callback: bool
    var x: real
    var y: real
    var width: real
    var height: real

    /** A new button has the given selection, an empty rectangle at the origin and no callback. */
    constructor (textureWidth: real, textureHeight: real, selected: bool)
      ensures this.textureWidth == textureWidth && this.textureHeight == textureHeight
      ensures this.selected == selected && !callback
      ensures x == 0.0 && y == 0.0 && width == 0.0 && height == 0.0
    {
      this.textureWidth := textureWidth;
      this.textureHeight := textureHeight;
      this.selected := selected;
      callback := false;
      x, y, width, height := 0.0, 0.0, 0.0, 0.0;
    }

    /** `setHeight`: the width follows the height at the texture's aspect ratio. */
    method SetHeight(h: real)
      requires textureHeight > 0.0
      modifies this`height, this`width
      ensures height == h && width * textureHeight == h * textureWidth
    {
      height := h;
      width := (height / textureHeight) * textureWidth;
    }

    /** `setSelected`: stores the flag, which `isSelected` then returns. */
    method SetSelected(s: bool)
      modifies this`selected
      ensures selected == s
    {
      selected := s;
    }

    /** `isSelected`. */
    method IsSelected() returns (s: bool)
      ensures s == selected
    {
      return selected;
    }

    /** `setCallback`: registers a callback, or unregisters with a null function. */
    method SetCallback(registered: bool)
      modifies this`callback
      ensures callback == registered
    {
      callback := registered;
    }

    /**
     * `onMousePressed`: a hit selects the button and a miss leaves it as
     * it is; the callback runs exactly when the press turned an unselected
     * button into a selected one and a callback is registered.
     */
    method OnMousePressed(hit: bool) returns (fired: bool)
      modifies this`selected
      ensures selected == (old(selected) || hit)
      ensures old(selected) ==> selected && !fired
      ensures fired <==> !old(selected) && selected && callback
    {
      var wasSelected := selected;
      if hit {
        selected := true;
      }
      fired := !wasSelected && selected && callback;
    }
  }
}

=== FILE: server_session.dfy ===
/**
 * The client's session with the game server (client/src/ServerSession.cpp):
 * it opens a connection to the server on demand, forwards polls to it and
 * turns the connection's connect callbacks into session events for the
 * callback the client registered.
 *
 * A registered callback is modelled by the flag `callback` and by the
 * sequence of events handed to it during one call. The connection's own
 * callbacks are the two member functions `open` binds; the connection's
 * `poll` returns right after invoking either of them, so the model runs
 * them on the events `Connections.Connection.Poll` returns.
 */
module ServerSessions {
  import opened Wrappers
  import Wire
  import Connections

  /** Seconds a connect may take: `open` connects to 127.0.0.1, port 44444, with this timeout. */
  const CONNECT_TIMEOUT: real := 10.0

  /** `open` binds `onConnectSuccess` and `onConnectFail`, and no other connection callback. */
  const SESSION_CALLBACKS := Connections.Callbacks(true, true, false, false)

  /** What a session reports to its callback. */
  datatype Event =
    | NoEvent
    | ConnectionFailed
    | ConnectionSuspended
    | ConnectionResumed
    | ConnectionLost
    | NameAccepted
    | NameRejected

  /** The events a callback receives when `e` is reported: none when no callback is registered. */
  function Report(registered: bool, e: Event): seq<Event>
  {
    if registered then [e] else []
  }

  /** Whether every system call made by the connection's constructor succeeds. */
  predicate SetupSucceeds(os: Connections.SetupReport)
  {
    os.addressParses && os.socketFd >= 0 && os.nonblockingSet
    && os.connectCall != Connections.ConnectRefused
  }

  /**
   * An established connection of the session tells the session nothing:
   * `open` registers no callback for messages or for a loss. When the peer
   * has gone and nothing is queued, the receive pass closes the connection
   * all the same, so the session keeps a closed connection, which `open`
   * does not replace.
   */
  lemma EstablishedConnectionIsSilent<M>(buffered: seq<Wire.byte>, queued: seq<Wire.byte>,
                                         peer: Connections.PeerState, parse: seq<Wire.byte> -> Option<M>)
    ensures Connections.ExpectedReceive(buffered, queued, peer, parse, SESSION_CALLBACKS).events == []
    ensures queued == [] && peer != Connections.PeerOpen ==>
              !Connections.ExpectedReceive(buffered, queued, peer, parse, SESSION_CALLBACKS).keepsOpen
  {
  }

  class ServerSession {
    var connection: Connections.Connection?
    /** Whether a callback is registered. */
    var callback: bool

    /** The objects of the connection, when there is one. */
    ghost function Footprint(): set<object>
      reads this`connection
    {
      if connection == null then {} else {connection, connection.recvBuffer}
    }

    /** A connection, when there is one, is the one `open` creates: well formed, with the session's callbacks. */
    ghost predicate Valid()
      reads this`connection, Footprint()
    {
      connection != null ==>
        connection.Valid() && connection.cbs == SESSION_CALLBACKS
        && connection.openTimeout == CONNECT_TIMEOUT
    }

    /** A new session has neither a connection nor a callback; `open` makes the connection. */
    constructor ()
      ensures Valid() && connection == null && !callback
    {
      connection := null;
      callback := false;
    }

    /** The destructor deletes the connection, closing its socket. */
    method Destroy()
      modifies Footprint()
      ensures connection != null ==> connection.Phase() == Connections.Closed
    {
      if connection != null {
        connection.Destroy();
      }
    }

    /** `registerCallback`: replaces the callback (a null function unregisters it). */
    method RegisterCallback(registered: bool)
      modifies this`callback
      ensures callback == registered
    {
      callback := registered;
    }

    /**
     * `open`: creates the connection unless there already is one. The name
     * is not stored. When the connection's constructor throws, the session
     * stays without a connection and reports CONNECTION_LOST.
     */
    method Open(name: string, os: Connections.SetupReport) returns (events: seq<Event>)
      requires Valid()
      modifies this`connection
      ensures Valid()
      ensures old(connection) != null ==> connection == old(connection) && events == []
      ensures old(connection) == null && SetupSucceeds(os) ==>
                connection != null && fresh(connection) && connection.Phase() == Connections.Connecting
                && connection.sockfd == os.socketFd && connection.timer == 0.0 && events == []
      ensures old(connection) == null && !SetupSucceeds(os) ==>
                connection == null && events == Report(callback, ConnectionLost)
    {
      events := [];
      if connection == null {
        var r := Connections.Connection.Connect(CONNECT_TIMEOUT, SESSION_CALLBACKS, os);
        if r.Success? {
          connection := r.value;
        } else {
          events := Report(callback, ConnectionLost);
        }
      }
    }

    /**
     * `onConnectSuccess`: a success of a connection other than the
     * session's own is ignored; otherwise NAME_ACCEPTED is reported.
     */
    method OnConnectSuccess(conn: Connections.Connection) returns (events: seq<Event>)
      ensures conn != connection ==> events == []
      ensures conn == connection ==> events == Report(callback, NameAccepted)
    {
      if conn != connection {
        return [];
      }
      events := Report(callback, NameAccepted);
    }

    /**
     * `onConnectFail`: a failure of a connection other than the session's
     * own is ignored; otherwise the connection is deleted, the session is
     * left without one and CONNECTION_LOST is reported.
     */
    method OnConnectFail(conn: Connections.Connection) returns (events: seq<Event>)
      requires Valid()
      modifies this`connection, Footprint()
      ensures Valid()
      ensures conn != old(connection) ==> connection == old(connection) && events == [] && unchanged(conn)
      ensures conn == old(connection) ==>
                connection == null && conn.Phase() == Connections.Closed
                && events == Report(callback, ConnectionLost)
    {
      if conn != connection {
        return [];
      }
      connection.Destroy();
      connection := null;
      events := Report(callback, ConnectionLost);
    }

    /**
     * `poll`: forwards to the connection when there is one. A failure of
     * the connection's `poll` propagates and leaves the (closed) connection
     * in place; the connect callbacks turn a connect into NAME_ACCEPTED and
     * a failed or timed-out connect into CONNECTION_LOST with the connection
     * gone. An established connection reports nothing, since `open`
     * registers no callback for messages or for its loss.
     */
    method Poll<M>(secs: real, probe: Connections.ConnectProbe, queued: seq<Wire.byte>,
                   peer: Connections.PeerState, parse: seq<Wire.byte> -> Option<M>)
      returns (r: Result<seq<Event>, string>)
      requires Valid()
      modifies this`connection, Footprint()
      ensures Valid()
      ensures old(connection) == null ==> r == Success([]) && connection == null
      ensures old(connection) != null && old(connection.Phase()) == Connections.Closed ==>
                r == Success([]) && connection == old(connection)
                && unchanged(connection, connection.recvBuffer)
      ensures old(connection) != null && old(connection.Phase()) == Connections.Open ==>
                r == Success([]) && connection == old(connection)
                && connection.ReceivedAsExpected<M>(old(connection.Buffered()), old(connection.received),
                                                    old(connection.delivered), queued, peer, parse, [])
      ensures old(connection) != null && old(connection.Phase()) == Connections.Connecting ==>
                (probe == Connections.SelectFailed ==>
                   r == Failure("Error polling for connection status")
                   && connection == old(connection) && connection.Phase() == Connections.Closed)
                && (probe == Connections.Writable ==>
                      r == Success(Report(callback, NameAccepted))
                      && connection == old(connection) && connection.Phase() == Connections.Open)
                && (probe == Connections.SocketError
                    || (probe == Connections.Pending && old(connection.timer) + secs > CONNECT_TIMEOUT) ==>
                      r == Success(Report(callback, ConnectionLost))
                      && connection == null && old(connection).Phase() == Connections.Closed)
                && (probe == Connections.Pending && old(connection.timer) + secs <= CONNECT_TIMEOUT ==>
                      r == Success([]) && connection == old(connection)
                      && connection.Phase() == Connections.Connecting
                      && connection.timer == old(connection.timer) + secs)
    {
      if connection == null {
        return Success([]);
      }
      var c := connection;
      var res := c.Poll(secs, probe, queued, peer, parse);
      if res.Failure? {
        return Failure(res.error);
      }
      if |res.value| == 1 && res.value[0].ConnectSuccess? {
        var events := OnConnectSuccess(c);
        r := Success(events);
      } else if |res.value| == 1 && res.value[0].ConnectFail? {
        var events := OnConnectFail(c);
        r := Success(events);
      } else {
        r := Success([]);
      }
    }
  }
}

=== FILE: session_list.dfy ===
/**
 * The server's registry of client sessions (server/src/SessionList.cpp): a
 * doubly linked list of `Session` nodes, with insertion at the head,
 * unlinking of a given node and lookups that walk from the head.
 *
 * The ghost sequence `sessions` is the chain from the head, in order; the
 * accessors `getName`, `getConnection` and `getNext` are reads of the
 * fields `name`, `conn` and `next`. A connection is a reference to a
 * `Connections.Connection`, a name an optional string (null is `None`).
 */
module SessionLists {
  import opened Wrappers
  import Connections

  /** The first position in `xs` that holds `x`, or `|xs|` when none does. */
  function FirstIndexOf<T(==)>(xs: seq<T>, x: T): (k: nat)
    ensures k <= |xs|
  {
    if xs == [] then 0
    else if xs[0] == x then 0
    else 1 + FirstIndexOf(xs[1..], x)
  }

  /**
   * `FirstIndexOf` finds the first occurrence: every earlier element
   * differs, and the position found holds `x` unless it is the end.
   */
  lemma {:induction false} FirstIndexOfSpec<T>(xs: seq<T>, x: T)
    ensures var k := FirstIndexOf(xs, x);
            k <= |xs|
            && (forall i :: 0 <= i < k ==> xs[i] != x)
            && (k < |xs| ==> xs[k] == x)
            && (k == |xs| <==> x !in xs)
  {
    if xs != [] && xs[0] != x {
      FirstIndexOfSpec(xs[1..], x);
      var k := FirstIndexOf(xs[1..], x);
      forall i | 0 <= i < 1 + k
        ensures xs[i] != x
      {
        if i > 0 {
          assert xs[i] == xs[1..][i - 1];
        }
      }
      assert x in xs[1..] ==> x in xs;
      assert x in xs ==> x in xs[1..] by {
        if x in xs {
          var j :| 0 <= j < |xs| && xs[j] == x;
          assert xs[1..][j - 1] == x;
        }
      }
    }
  }

  class Session {
    var conn: Connections.Connection?
    var name: Option<string>
    var next: Session?
    var prev: Session?

    /** A new session has neither a connection nor a name. */
    constructor ()
      ensures conn == null && name == None
    {
      conn := null;
      name := None;
      next := null;
      prev := null;
    }

    /** `setName`: replaces the name, without looking at any other session's. */
    method SetName(n: string)
      modifies this`name
      ensures name == Some(n)
    {
      name := Some(n);
    }

    /** `setConnection`: replaces the connection. */
    method SetConnection(c: Connections.Connection?)
      modifies this`conn
      ensures conn == c
    {
      conn := c;
    }
  }

  class SessionList {
    var listHead: Session?
    /** The sessions from the head to the tail. */
    ghost var sessions: seq<Session>

    /** The session at position `i` of the chain, null past either end. */
    ghost function At(i: int): Session?
      reads this
    {
      if 0 <= i < |sessions| then sessions[i] else null
    }

    /**
     * `listHead` starts the chain, and every node's `next` and `prev` are its
     * neighbours in `sessions` (null at the ends).
     */
    ghost predicate Valid()
      reads this, sessions
    {
      listHead == At(0)
      && (forall i {:trigger sessions[i].next} :: 0 <= i < |sessions| ==> sessions[i].next == At(i + 1))
      && (forall i {:trigger sessions[i].prev} :: 0 <= i < |sessions| ==> sessions[i].prev == At(i - 1))
    }

    /**
     * No session occurs twice in a valid chain: two equal nodes would have
     * equal successors all the way to the tail, where one `next` is null.
     */
    lemma {:induction false} DistinctNodes(a: nat, b: nat)
      requires Valid() && a < b < |sessions|
      ensures sessions[a] != sessions[b]
      decreases |sessions| - b
    {
      if b + 1 < |sessions| {
        DistinctNodes(a + 1, b + 1);
        assert sessions[a].next == sessions[a + 1] && sessions[b].next == sessions[b + 1];
      } else {
        assert sessions[a].next != null && sessions[b].next == null;
      }
    }

    /** The session at position `j` occurs nowhere else in the chain. */
    lemma DistinctFrom(j: nat)
      requires Valid() && j < |sessions|
      ensures forall k :: 0 <= k < |sessions| && k != j ==> sessions[k] != sessions[j]
    {
      forall k | 0 <= k < |sessions| && k != j
        ensures sessions[k] != sessions[j]
      {
        if k < j {
          DistinctNodes(k, j);
        } else {
          DistinctNodes(j, k);
        }
      }
    }

    constructor ()
      ensures Valid() && sessions == []
    {
      listHead := null;
      sessions := [];
    }

    /**
     * `generateSession`: a fresh session without connection or name
     * becomes the head; the former head's `prev` points to it and no other
     * session changes.
     */
    method GenerateSession() returns (sess: Session)
      requires Valid()
      modifies this, sessions
      ensures Valid() && fresh(sess)
      ensures sessions == [sess] + old(sessions)
      ensures sess.conn == null && sess.name == None && sess.prev == null
      ensures forall s :: s in old(sessions) ==> s.conn == old(s.conn) && s.name == old(s.name)
    {
      if sessions != [] {
        DistinctFrom(0);
      }
      sess := new Session();
      sess.next := listHead;
      sess.prev := null;
      if listHead != null {
        listHead.prev := sess;
      }
      listHead := sess;
      sessions := [sess] + sessions;
    }

    /**
     * `destroySession`: unlinks exactly `sess`, keeping the order of the
     * others, and the session's destructor closes its connection. A session
     * without predecessor must be the head, which the source asserts.
     */
    method DestroySession(sess: Session)
      requires Valid() && sess in sessions
      modifies this, sessions, sess.conn
      ensures Valid()
      ensures var i := FirstIndexOf(old(sessions), sess);
              i < |old(sessions)| && sessions == old(sessions[..i] + sessions[i + 1..])
      ensures forall s :: s in sessions ==> s.conn == old(s.conn) && s.name == old(s.name)
      ensures sess.conn == old(sess.conn)
      ensures sess.conn != null ==> sess.conn.Phase() == Connections.Closed
    {
      FirstIndexOfSpec(sessions, sess);
      Unlink(sess, FirstIndexOf(sessions, sess));
      if sess.conn != null {
        sess.conn.Destroy();
      }
    }

    /** The pointer surgery of `destroySession`: `sess`, at position `i`, leaves the chain. */
    method Unlink(sess: Session, ghost i: nat)
      requires Valid() && i < |sessions| && sessions[i] == sess
      modifies this, sessions
      ensures Valid()
      ensures sessions == old(sessions[..i] + sessions[i + 1..])
      ensures forall s :: s in old(sessions) ==> s.conn == old(s.conn) && s.name == old(s.name)
    {
      ghost var before := sessions;
      ghost var pred, succ := At(i - 1), At(i + 1);
      if 0 < i {
        DistinctFrom(i - 1);
      }
      if i + 1 < |sessions| {
        DistinctFrom(i + 1);
      }
      if sess.next != null {
        sess.next.prev := sess.prev;
      }
      if sess.prev != null {
        sess.prev.next := sess.next;
      } else {
        assert listHead == sess;
        listHead := sess.next;
      }
      sessions := before[..i] + before[i + 1..];
      forall k | 0 <= k < |sessions|
        ensures sessions[k].next == At(k + 1)
      {
        var k' := if k < i then k else k + 1;
        assert sessions[k] == before[k'];
        if k' == i - 1 {
          assert sessions[k] == pred && pred.next == succ;
        } else {
          assert before[k'].next == old(before[k'].next);
        }
      }
      forall k | 0 <= k < |sessions|
        ensures sessions[k].prev == At(k - 1)
      {
        var k' := if k < i then k else k + 1;
        assert sessions[k] == before[k'];
        if k' == i + 1 {
          assert sessions[k] == succ && succ.prev == pred;
        } else {
          assert before[k'].prev == old(before[k'].prev);
        }
      }
    }

    /**
     * `findByConnection`: the first session from the head whose connection
     * is `c`, or null when none is.
     */
    method FindByConnection(c: Connections.Connection?) returns (r: Session?)
      requires Valid()
      ensures var k := FirstIndexOf(Conns(), c);
              r == At(k) && (forall i :: 0 <= i < k ==> sessions[i].conn != c)
              && (r != null ==> r.conn == c)
              && (r == null <==> forall i :: 0 <= i < |sessions| ==> sessions[i].conn != c)
    {
      FirstIndexOfSpec(Conns(), c);
      var temp := listHead;
      ghost var j := 0;
      while temp != null
        invariant 0 <= j <= |sessions| && temp == At(j)
        invariant forall i :: 0 <= i < j ==> sessions[i].conn != c
        decreases |sessions| - j
      {
        if temp.conn == c {
          return temp;
        }
        temp := temp.next;
        j := j + 1;
      }
      return null;
    }

    /** The connections of the sessions, in list order. */
    ghost function Conns(): (cs: seq<Connections.Connection?>)
      reads this, sessions
      ensures |cs| == |sessions| && forall i :: 0 <= i < |sessions| ==> cs[i] == sessions[i].conn
    {
      seq(|sessions|, i reads this, sessions requires 0 <= i < |sessions| => sessions[i].conn)
    }

    /** The names of the sessions, in list order (`None` for an unnamed one). */
    ghost function Names(): (ns: seq<Option<string>>)
      reads this, sessions
      ensures |ns| == |sessions| && forall i :: 0 <= i < |sessions| ==> ns[i] == sessions[i].name
    {
      seq(|sessions|, i reads this, sessions requires 0 <= i < |sessions| => sessions[i].name)
    }

    /**
     * `findByName`: the first session from the head that has the name `n`;
     * unnamed sessions never match.
     */
    method FindByName(n: string) returns (r: Session?)
      requires Valid()
      ensures var k := FirstIndexOf(Names(), Some(n));
              r == At(k) && (forall i :: 0 <= i < k ==> sessions[i].name != Some(n))
              && (r != null ==> r.name == Some(n))
              && (r == null <==> forall i :: 0 <= i < |sessions| ==> sessions[i].name != Some(n))
    {
      FirstIndexOfSpec(Names(), Some(n));
      var temp := listHead;
      ghost var j := 0;
      while temp != null
        invariant 0 <= j <= |sessions| && temp == At(j)
        invariant forall i :: 0 <= i < j ==> sessions[i].name != Some(n)
        decreases |sessions| - j
      {
        if temp.name.Some? && temp.name.value == n {
          return temp;
        }
        temp := temp.next;
        j := j + 1;
      }
      return null;
    }

    /** `getFirst`: the head, null for an empty list. */
    method GetFirst() returns (r: Session?)
      requires Valid()
      ensures r == null <==> sessions == []
      ensures r != null ==> r == sessions[0] && r.prev == null
    {
      return listHead;
    }

    /**
     * The destructor deletes every session from the head on, and with each
     * the connection it holds.
     */
    method Clear()
      requires Valid()
      modifies this, set i | 0 <= i < |sessions| :: sessions[i].conn
      ensures listHead == null && sessions == []
      ensures forall i :: 0 <= i < |old(sessions)| && old(sessions)[i].conn != null
                ==> old(sessions)[i].conn.Phase() == Connections.Closed
    {
      ghost var all := sessions;
      ghost var j := 0;
      while listHead != null
        invariant 0 <= j <= |all| && all == sessions && listHead == At(j)
        invariant forall i {:trigger all[i].next} :: 0 <= i < |all| ==> all[i].next == At(i + 1)
        invariant forall i :: 0 <= i < |all| ==> all[i].conn == old(all[i].conn)
        invariant forall i :: 0 <= i < j && all[i].conn != null ==> all[i].conn.sockfd < 0
        decreases |all| - j
      {
        var temp := listHead.next;
        if listHead.conn != null {
          listHead.conn.Destroy();
        }
        listHead := temp;
        j := j + 1;
      }
      sessions := [];
    }
  }
}

=== FILE: src_util.dfy ===
/**
 * The older `Util` (src/Util.cpp): the executable's directory and resource
 * paths, computed as the client's copy computes them. The static member
 * `exeDir` is the field of one `Util` object, and `OSX_RELEASE_BUILD` is
 * one of its constants.
 */
module SrcUtil {
  import Paths

  class Util {
    /** `OSX_RELEASE_BUILD`. */
    const osxRelease: bool
    var exeDir: string

    /** The static before any call: an empty directory. */
    constructor (osxRelease: bool)
      ensures this.osxRelease == osxRelease && exeDir == ""
    {
      this.osxRelease := osxRelease;
      exeDir := "";
    }

    /** `registerRunArgs`: keeps the directory part of `argv[0]`, or all of it without a separator. */
    method RegisterRunArgs(argv0: string)
      requires Paths.IsCString(argv0)
      modifies this`exeDir
      ensures exeDir == Paths.ExeDir(argv0)
    {
      var lastSlash := Paths.FindLastSeparator(argv0);
      exeDir := Paths.SubstrFromStart(argv0, lastSlash);
    }

    /**
     * `formResourcePath`: a release build on macOS looks in `res` beside
     * the executable, any other build in `res` under the working directory.
     */
    method FormResourcePath(resourceName: string) returns (path: string)
      ensures Paths.NoSeparator(resourceName) ==>
                Paths.ExeDir(path) == if osxRelease then exeDir + "/res" else "res"
      ensures path == Paths.ResourcePath(exeDir, resourceName, osxRelease)
    {
      if osxRelease {
        path := exeDir + "/res/" + resourceName;
      } else {
        path := "res/" + resourceName;
      }
      if Paths.NoSeparator(resourceName) {
        Paths.ResourceDirectory(exeDir, resourceName, osxRelease);
      }
    }
  }
}

=== FILE: window.dfy ===
/**
 * The decisions of the client window (client/src/Window.cpp) that do not
 * depend on the screen: how many of the fixed windowed resolutions fit the
 * monitor, how typed keys are folded to upper case before they reach the
 * scene, and whether a new configuration resizes the window.
 *
 * The monitor size, the current window size and the keys raylib reports
 * are parameters.
 */
module Windows {
  import opened Wrappers

  datatype WindowConfiguration = WindowConfiguration(isFullscreen: bool, windowWidth: int, windowHeight: int)

  const NUM_WINDOWED_CONFIG_MODES: nat := 12

  /** The windowed resolutions, from the smallest to the largest. */
  const WINDOWED_CONFIG_MODES: seq<WindowConfiguration> := [
    WindowConfiguration(false, 1142, 658),
    WindowConfiguration(false, 1280, 720),
    WindowConfiguration(false, 1408, 792),
    WindowConfiguration(false, 1536, 864),
    WindowConfiguration(false, 1664, 936),
    WindowConfiguration(false, 1920, 1080),
    WindowConfiguration(false, 2176, 1274),
    WindowConfiguration(false, 2432, 1368),
    WindowConfiguration(false, 2560, 1440),
    WindowConfiguration(false, 3072, 1728),
    WindowConfiguration(false, 3584, 2016),
    WindowConfiguration(false, 3840, 2160)
  ]

  /** A configuration fits a monitor when neither dimension exceeds the monitor's. */
  predicate Fits(c: WindowConfiguration, monitorWidth: int, monitorHeight: int)
  {
    c.windowWidth <= monitorWidth && c.windowHeight <= monitorHeight
  }

  /** Every entry is strictly wider and strictly taller than the one before it. */
  predicate Increasing(modes: seq<WindowConfiguration>)
  {
    forall i :: 0 <= i < |modes| - 1 ==>
      modes[i].windowWidth < modes[i + 1].windowWidth && modes[i].windowHeight < modes[i + 1].windowHeight
  }

  /** How many entries of `modes` fit the monitor. */
  function CountFitting(modes: seq<WindowConfiguration>, monitorWidth: int, monitorHeight: int): nat
  {
    if modes == [] then 0
    else (if Fits(modes[0], monitorWidth, monitorHeight) then 1 else 0)
         + CountFitting(modes[1..], monitorWidth, monitorHeight)
  }

  /** The table has as many entries as its declared count, ordered as its comment requires. */
  lemma ModesIncreasing()
    ensures |WINDOWED_CONFIG_MODES| == NUM_WINDOWED_CONFIG_MODES
    ensures Increasing(WINDOWED_CONFIG_MODES)
  {
    var m := WINDOWED_CONFIG_MODES;
    assert m[0].windowWidth < m[1].windowWidth && m[0].windowHeight < m[1].windowHeight;
    assert m[1].windowWidth < m[2].windowWidth && m[1].windowHeight < m[2].windowHeight;
    assert m[2].windowWidth < m[3].windowWidth && m[2].windowHeight < m[3].windowHeight;
    assert m[3].windowWidth < m[4].windowWidth && m[3].windowHeight < m[4].windowHeight;
    assert m[4].windowWidth < m[5].windowWidth && m[4].windowHeight < m[5].windowHeight;
    assert m[5].windowWidth < m[6].windowWidth && m[5].windowHeight < m[6].windowHeight;
    assert m[6].windowWidth < m[7].windowWidth && m[6].windowHeight < m[7].windowHeight;
    assert m[7].windowWidth < m[8].windowWidth && m[7].windowHeight < m[8].windowHeight;
    assert m[8].windowWidth < m[9].windowWidth && m[8].windowHeight < m[9].windowHeight;
    assert m[9].windowWidth < m[10].windowWidth && m[9].windowHeight < m[10].windowHeight;
    assert m[10].windowWidth < m[11].windowWidth && m[10].windowHeight < m[11].windowHeight;
  }

  /** In an increasing table, nothing after an entry that does not fit fits either. */
  lemma {:induction false} NoneFitAfterMisfit(modes: seq<WindowConfiguration>, monitorWidth: int, monitorHeight: int)
    requires Increasing(modes) && modes != [] && !Fits(modes[0], monitorWidth, monitorHeight)
    ensures CountFitting(modes, monitorWidth, monitorHeight) == 0
  {
    if |modes| > 1 {
      assert Increasing(modes[1..]) by {
        forall i | 0 <= i < |modes[1..]| - 1
          ensures modes[1..][i].windowWidth < modes[1..][i + 1].windowWidth
                  && modes[1..][i].windowHeight < modes[1..][i + 1].windowHeight
        {
          assert modes[1..][i] == modes[i + 1] && modes[1..][i + 1] == modes[i + 2];
        }
      }
      NoneFitAfterMisfit(modes[1..], monitorWidth, monitorHeight);
    }
  }

  /**
   * In an increasing table, the position of the first entry that does not
   * fit (or the table's length) is the number of entries that fit.
   */
  lemma {:induction false} FirstMisfitCountsFits(modes: seq<WindowConfiguration>, monitorWidth: int,
                                                  monitorHeight: int, r: nat)
    requires Increasing(modes) && r <= |modes|
    requires forall i :: 0 <= i < r ==> Fits(modes[i], monitorWidth, monitorHeight)
    requires r < |modes| ==> !Fits(modes[r], monitorWidth, monitorHeight)
    ensures r == CountFitting(modes, monitorWidth, monitorHeight)
  {
    if modes == [] {
    } else if r == 0 {
      NoneFitAfterMisfit(modes, monitorWidth, monitorHeight);
    } else {
      var tail := modes[1..];
      assert Increasing(tail) by {
        forall i | 0 <= i < |tail| - 1
          ensures tail[i].windowWidth < tail[i + 1].windowWidth && tail[i].windowHeight < tail[i + 1].windowHeight
        {
          assert tail[i] == modes[i + 1] && tail[i + 1] == modes[i + 2];
        }
      }
      forall i | 0 <= i < r - 1
        ensures Fits(tail[i], monitorWidth, monitorHeight)
      {
        assert tail[i] == modes[i + 1];
      }
      if r - 1 < |tail| {
        assert tail[r - 1] == modes[r];
      }
      FirstMisfitCountsFits(tail, monitorWidth, monitorHeight, r - 1);
    }
  }

  /**
   * `getNumWindowedConfigModes`: the position of the first table entry
   * wider or taller than the monitor, or the table's size when all fit.
   */
  method GetNumWindowedConfigModes(monitorWidth: int, monitorHeight: int) returns (r: nat)
    ensures r <= NUM_WINDOWED_CONFIG_MODES
    ensures forall i :: 0 <= i < r ==> Fits(WINDOWED_CONFIG_MODES[i], monitorWidth, monitorHeight)
    ensures r < NUM_WINDOWED_CONFIG_MODES ==> !Fits(WINDOWED_CONFIG_MODES[r], monitorWidth, monitorHeight)
    ensures r == CountFitting(WINDOWED_CONFIG_MODES, monitorWidth, monitorHeight)
  {
    ModesIncreasing();
    var curModeIdx := 0;
    while curModeIdx < NUM_WINDOWED_CONFIG_MODES
      invariant curModeIdx <= NUM_WINDOWED_CONFIG_MODES
      invariant forall i :: 0 <= i < curModeIdx ==> Fits(WINDOWED_CONFIG_MODES[i], monitorWidth, monitorHeight)
    {
      var config := WINDOWED_CONFIG_MODES[curModeIdx];
      if config.windowWidth > monitorWidth || config.windowHeight > monitorHeight {
        FirstMisfitCountsFits(WINDOWED_CONFIG_MODES, monitorWidth, monitorHeight, curModeIdx);
        return curModeIdx;
      }
      curModeIdx := curModeIdx + 1;
    }
    FirstMisfitCountsFits(WINDOWED_CONFIG_MODES, monitorWidth, monitorHeight, NUM_WINDOWED_CONFIG_MODES);
    return NUM_WINDOWED_CONFIG_MODES;
  }

  /** Key codes 'a' to 'z' become 'A' to 'Z'; every other code is kept. */
  function FoldKey(key: int): (r: int)
    ensures 'a' as int <= key <= 'z' as int ==> 'A' as int <= r <= 'Z' as int && r - key == 'A' as int - 'a' as int
    ensures !('a' as int <= key <= 'z' as int) ==> r == key
  {
    if 'a' as int <= key <= 'z' as int then key + ('A' as int - 'a' as int) else key
  }

  /** Folding never yields a lower-case letter and leaves folded codes alone. */
  lemma FoldKeyUpper(key: int)
    ensures !('a' as int <= FoldKey(key) <= 'z' as int)
    ensures FoldKey(FoldKey(key)) == FoldKey(key)
  {
  }

  /**
   * The key loop of `update`: the codes raylib reports are folded and
   * forwarded to the scene, in order, until it reports a code that is not
   * positive.
   */
  method ForwardKeys(pressed: seq<int>) returns (forwarded: seq<int>)
    ensures |forwarded| <= |pressed|
    ensures forall i :: 0 <= i < |forwarded| ==> pressed[i] > 0 && forwarded[i] == FoldKey(pressed[i])
    ensures |forwarded| < |pressed| ==> pressed[|forwarded|] <= 0
  {
    forwarded := [];
    var n := 0;
    var key := if n < |pressed| then pressed[n] else 0;
    while key > 0
      invariant (n < |pressed| && key == pressed[n]) || (n == |pressed| && key == 0)
      invariant |forwarded| == n
      invariant forall i :: 0 <= i < n ==> pressed[i] > 0 && forwarded[i] == FoldKey(pressed[i])
      decreases |pressed| - n
    {
      forwarded := forwarded + [FoldKey(key)];
      n := n + 1;
      key := if n < |pressed| then pressed[n] else 0;
    }
  }

  /**
   * The size decision of `updateConfiguration`: no resize when the
   * requested size is the current one; otherwise the monitor's size when
   * both requested dimensions are 0, and the requested size when not.
   */
  function SizeDecision(config: WindowConfiguration, curWidth: int, curHeight: int,
                        monitorWidth: int, monitorHeight: int): (r: Option<(int, int)>)
    ensures r == None <==> config.windowWidth == curWidth && config.windowHeight == curHeight
    ensures r.Some? && config.windowWidth == 0 && config.windowHeight == 0 ==> r.value == (monitorWidth, monitorHeight)
    ensures r.Some? && (config.windowWidth != 0 || config.windowHeight != 0)
            ==> r.value == (config.windowWidth, config.windowHeight)
  {
    if config.windowWidth != curWidth || config.windowHeight != curHeight then
      if config.windowWidth == 0 && config.windowHeight == 0 then Some((monitorWidth, monitorHeight))
      else Some((config.windowWidth, config.windowHeight))
    else None
  }

  /**
   * Applying a configuration with an explicit size settles: once the
   * window has the size decided, the same configuration asks for no
   * further resize. A 0x0 configuration never settles on a monitor of
   * nonzero size: every update resizes the window to the monitor again.
   */
  lemma SizeDecisionSettles(config: WindowConfiguration, curWidth: int, curHeight: int,
                            monitorWidth: int, monitorHeight: int)
    ensures var r := SizeDecision(config, curWidth, curHeight, monitorWidth, monitorHeight);
            r.Some? && (config.windowWidth != 0 || config.windowHeight != 0)
            ==> SizeDecision(config, r.value.0, r.value.1, monitorWidth, monitorHeight) == None
    ensures var r := SizeDecision(config, curWidth, curHeight, monitorWidth, monitorHeight);
            r.Some? && config.windowWidth == 0 && config.windowHeight == 0 && (monitorWidth, monitorHeight) != (0, 0)
            ==> SizeDecision(config, r.value.0, r.value.1, monitorWidth, monitorHeight) == r
  {
  }
}

=== FILE: wire.dfy ===
/**
 * The wire format of a Connection: every message is a 2-byte big-endian
 * (network byte order) payload length followed by the payload bytes.
 *
 * `Frame` is what the sender writes (shared-src/Connection.cpp:155-185) and
 * `Deframe` is the reference decoding of a received byte stream into its
 * complete payloads and the incomplete rest that is still being assembled
 * (shared-src/Connection.cpp:306-384).
 */
module Wire {

  newtype byte = b: int | 0 <= b < 256

  /** Largest value a `uint16_t` length prefix can carry. */
  const MAX_FRAME_LEN: nat := 0xFFFF

  /** `ntohs` over the first two buffered bytes: big-endian decoding. */
  function Be16(hi: byte, lo: byte): (n: nat)
    ensures n <= MAX_FRAME_LEN
  {
    hi as int * 256 + lo as int
  }

  /** The two bytes `htons(n)` puts on the wire, high byte first. */
  function LengthPrefix(n: nat): (p: seq<byte>)
    requires n <= MAX_FRAME_LEN
    ensures |p| == 2 && Be16(p[0], p[1]) == n
  {
    [(n / 256) as byte, (n % 256) as byte]
  }

  /** The value a `size_t` length keeps after conversion to `uint16_t`. */
  function Uint16(n: nat): nat
  {
    n % 0x1_0000
  }

  /**
   * The bytes the sender hands to `send` for one payload: the prefix
   * carries the payload length truncated to 16 bits, then the whole payload.
   */
  function Frame(payload: seq<byte>): seq<byte>
  {
    LengthPrefix(Uint16(|payload|)) + payload
  }

  /** True when `s` does not yet hold a complete frame. */
  predicate Incomplete(s: seq<byte>)
  {
    |s| < 2 || |s| < 2 + Be16(s[0], s[1])
  }

  /**
   * Splits a received stream into the payloads of its complete frames, in
   * order, and the rest that does not yet form a complete frame.
   */
  function Deframe(s: seq<byte>): (r: (seq<seq<byte>>, seq<byte>))
    decreases |s|
  {
    if Incomplete(s) then ([], s)
    else
      var n := Be16(s[0], s[1]);
      var tail := Deframe(s[2 + n..]);
      ([s[2..2 + n]] + tail.0, tail.1)
  }

  /**
   * The bytes still being assembled are always the tail of the stream, and
   * they never hold a complete frame.
   */
  lemma {:induction false} DeframeRest(s: seq<byte>)
    ensures var rest := Deframe(s).1;
            Incomplete(rest) && |rest| <= |s| && rest == s[|s| - |rest|..]
    decreases |s|
  {
    if !Incomplete(s) {
      var n := Be16(s[0], s[1]);
      DeframeRest(s[2 + n..]);
      var rest := Deframe(s[2 + n..]).1;
      assert s[2 + n..][|s[2 + n..]| - |rest|..] == s[|s| - |rest|..];
    }
  }

  /** Concatenation of the frames of `payloads`, in order. */
  function Frames(payloads: seq<seq<byte>>): seq<byte>
  {
    if payloads == [] then [] else Frame(payloads[0]) + Frames(payloads[1..])
  }

  /** Every payload fits the 16-bit length prefix. */
  predicate AllFit(payloads: seq<seq<byte>>)
  {
    forall i :: 0 <= i < |payloads| ==> |payloads[i]| <= MAX_FRAME_LEN
  }

  /** One step of `Deframe` on a stream that begins with a complete frame. */
  lemma DeframeFirst(s: seq<byte>)
    requires !Incomplete(s)
    ensures var n := Be16(s[0], s[1]);
            Deframe(s) == ([s[2..2 + n]] + Deframe(s[2 + n..]).0, Deframe(s[2 + n..]).1)
  {
  }

  /**
   * Decoding is compositional: bytes that arrive later only ever add
   * payloads after the ones already decoded, and the decoding of the rest
   * continues from the bytes still being assembled.
   */
  lemma {:induction false} DeframeAppend(s: seq<byte>, t: seq<byte>)
    ensures Deframe(s + t) == (Deframe(s).0 + Deframe(Deframe(s).1 + t).0,
                               Deframe(Deframe(s).1 + t).1)
    decreases |s|
  {
    if Incomplete(s) {
      assert Deframe(s) == ([], s);
      assert [] + Deframe(s + t).0 == Deframe(s + t).0;
    } else {
      var n := Be16(s[0], s[1]);
      var st := s + t;
      var payload := s[2..2 + n];
      var head, rest := Deframe(s[2 + n..]).0, Deframe(s[2 + n..]).1;
      var later := Deframe(rest + t);
      assert Deframe(s) == ([payload] + head, rest) by {
        DeframeFirst(s);
      }
      assert Deframe(st) == ([payload] + (head + later.0), later.1) by {
        assert st[0] == s[0] && st[1] == s[1];
        assert st[2 + n..] == s[2 + n..] + t;
        assert st[2..2 + n] == payload;
        DeframeFirst(st);
        DeframeAppend(s[2 + n..], t);
      }
      assert [payload] + (head + later.0) == ([payload] + head) + later.0;
    }
  }

  /** Round trip for one frame whose payload fits the prefix. */
  lemma FrameRoundTrip(payload: seq<byte>, rest: seq<byte>)
    requires |payload| <= MAX_FRAME_LEN
    ensures Deframe(Frame(payload) + rest)
         == ([payload] + Deframe(rest).0, Deframe(rest).1)
  {
    var s := Frame(payload) + rest;
    var n := |payload|;
    assert Uint16(n) == n;
    assert Be16(s[0], s[1]) == n;
    assert s[2 + n..] == rest;
    assert s[2..2 + n] == payload;
    DeframeFirst(s);
  }

  /**
   * Decoding the concatenated frames of payloads that fit the prefix gives
   * back exactly those payloads, in order, with nothing left over.
   */
  lemma {:induction false} FramesRoundTrip(payloads: seq<seq<byte>>)
    requires AllFit(payloads)
    ensures Deframe(Frames(payloads)) == (payloads, [])
  {
    if payloads == [] {
      assert Deframe([]) == ([], []);
    } else {
      FramesRoundTrip(payloads[1..]);
      FrameRoundTrip(payloads[0], Frames(payloads[1..]));
      assert [payloads[0]] + payloads[1..] == payloads;
    }
  }

  /**
   * A payload longer than 65535 bytes is framed with its truncated length,
   * so the receiver decodes only the first `|payload| % 65536` bytes as
   * the message and never gets the payload back.
   */
  lemma OversizedPayloadMisframed(payload: seq<byte>, rest: seq<byte>)
    requires |payload| > MAX_FRAME_LEN
    ensures var r := Deframe(Frame(payload) + rest);
            |r.0| > 0 && r.0[0] == payload[..Uint16(|payload|)] && r.0[0] != payload
  {
    var k := Uint16(|payload|);
    var s := Frame(payload) + rest;
    var prefix := LengthPrefix(k);
    assert s[0] == prefix[0] && s[1] == prefix[1];
    assert Be16(s[0], s[1]) == k;
    assert s[2..2 + k] == payload[..k];
    DeframeFirst(s);
  }

  /** A stream that is still incomplete decodes to no payloads and itself. */
  lemma DeframeIncomplete(s: seq<byte>)
    requires Incomplete(s)
    ensures Deframe(s) == ([], s)
  {
  }
}

=== FILE: wrappers.dfy ===
/** Optional values and results that carry an error message. */
module Wrappers {

  datatype Option<T> = None | Some(value: T)

  datatype Result<T, E> = Success(value: T) | Failure(error: E)
}
